=== FILE: README.md ===
# botty alerting core in Dafny

botty is a Telegram bot that watches Polymarket prices and tells a user when a
market outcome's price crosses a threshold the user set. This project models
the sequential logic of that bot and proves properties of it:

- the alert evaluation engine: price selection, the inclusive trigger test,
  the per-asset rule table a session builds from its enabled alerts, and the
  session's receive loop as a function from the sequence of `Receive` results
  to the sequence of `Notify` calls;
- the runner registry of `AlertingManager` as a map from Telegram user id to
  the user and alert snapshot its session runs on, with `StopUser`,
  `startUser`, `RestartUser`, `StartAll` and `StopAll` each as one atomic step;
- alert management: comparator canonicalisation, market lookup by slug,
  outcome-to-token mapping, the check order of `AddAlert`, and the error
  mapping of enable/disable/delete, plus an in-memory alert table standing
  for the repository;
- get-or-create of a user by Telegram id, over any user repository and over
  an in-memory one;
- the chat command parsers and the reply texts: error replies, the price
  summary, the market block and the 3800-byte budgeted event summary;
- the feed decoding: `decodeMessage`, `mapPriceChange`, `Receive`'s error
  classification, and the `NullableDecimal` and `StringList` JSON decoders;
- the log-level parser.

Modelling conventions:

- A Go string is a Dafny `string` where each `char` stands for one byte, so
  lengths and slices are byte counts.
- Whitespace is the ASCII part of `unicode.IsSpace`. Case mapping is ASCII.
- `decimal.Decimal` is an exact `real`. Its parse and print functions are the
  parameter `DecimalText`.
- `encoding/json` calls are the parameters `Json` and `WsJson`.
- Repositories, the Gamma client and the feed are passed in as the results of
  their calls.
- Go's `uint` is `Uint64` and `int64` is `Int64`.

Files, one module each: `wrappers.dfy` (Option, Result, Outcome),
`domain.dfy` (entities and errors), `text.dfy` (the `strings`/`strconv`
pieces used), `logger.dfy`, `commands.dfy`, `handlers.dfy`,
`polymarket_models.dfy`, `ws_client.dfy`, `alerting.dfy`, `registry.dfy`,
`alert_store.dfy`, `alert_usecase.dfy`, `user_usecase.dfy`.

## Model

| member | source | states |
|---|---|---|
| Alerting.SelectPrice | internal/usecase/alerting_usecase.go:241-255 | `<=` uses the best ask when present and every other comparator uses the best bid when present; if the preferred field is absent, the last trade price is used; the result is absent exactly when both the preferred field and the trade price are absent |
| Alerting.ShouldNotify | internal/usecase/alerting_usecase.go:257-263 | `<=` fires exactly when price ≤ threshold, and any other comparator exactly when price ≥ threshold |
| Alerting.ThresholdIsInclusive | internal/usecase/alerting_usecase.go:257-263 | a price equal to the threshold fires for every comparator |
| Alerting.ShouldNotifyMonotone | internal/usecase/alerting_usecase.go:257-263 | a firing `<=` alert also fires at any lower price, and a firing `>=` alert at any higher price |
| Alerting.RulesFor | internal/usecase/alerting_usecase.go:154-168 | the reference rule list for one asset holds exactly the alerts for that asset whose threshold parses, with the parsed threshold, and never more rules than alerts |
| Alerting.RulesForSnoc | internal/usecase/alerting_usecase.go:154-168 | one more alert adds its rule at the end of its asset's list when its threshold parses, and adds nothing otherwise |
| Alerting.BuildRules | internal/usecase/alerting_usecase.go:151-172 | the table's keys are exactly the assets of alerts whose threshold parses, and each key holds that asset's reference rule list in input order |
| Alerting.NoRulesIffNoUsableAlert | internal/usecase/alerting_usecase.go:170-176 | the rule table is empty exactly when no alert's threshold parses |
| Alerting.AlertTextReadable | internal/usecase/alerting_usecase.go:223-231 | the notification text starts with `Alert #`, the alert id can be read back from the digits that follow up to the first space, and the text ends with ` (price p)` for the price that fired |
| Alerting.Fire | internal/usecase/alerting_usecase.go:218-235 | a rule sends a notification for a change exactly when its comparator selects a price and that price crosses the threshold; the notification goes to the session's chat and names that price |
| Alerting.EvaluateRules | internal/usecase/alerting_usecase.go:217-235 | for one change, no more notifications than rules, and a notification is sent exactly when some rule with a selected price fires it |
| Alerting.EvaluateRulesOrder | internal/usecase/alerting_usecase.go:217-235 | for one change, the notifications are exactly those of the firing rules, one per firing rule, in rule order |
| Alerting.EvaluateChanges | internal/usecase/alerting_usecase.go:212-237 | a message sends no more notifications than it has (change, matching rule) pairs; changes for assets without rules send nothing; a notification is sent exactly when some change fires some rule of its asset |
| Alerting.EvaluateChangesOrder | internal/usecase/alerting_usecase.go:212-237 | a message sends exactly one notification per (change, rule) pair that fires, ordered by change and then by rule, and nothing else |
| Alerting.EvaluateMessage | internal/usecase/alerting_usecase.go:208-210 | a nil message or one whose type is not `price_change` sends nothing |
| Alerting.ProcessSends | internal/usecase/alerting_usecase.go:195-238 | a notification is sent exactly when some message received before the first receive error fires it |
| Alerting.ProcessAppend | internal/usecase/alerting_usecase.go:195-238 | received items are handled in order: an error-free prefix sends its notifications before anything received after it |
| Alerting.NoFailureTail | internal/usecase/alerting_usecase.go:202-206 | an error-free sequence of received items stays error-free after its first item |
| Alerting.ProcessStopsAtError | internal/usecase/alerting_usecase.go:202-206 | nothing received after the first receive error is evaluated |
| Alerting.ProcessSkipsNil | internal/usecase/alerting_usecase.go:208-210 | a nil message anywhere in the received sequence changes nothing sent |
| Alerting.ProcessNilFirst | internal/usecase/alerting_usecase.go:208-210 | a leading nil message changes nothing sent |
| Alerting.RunUser | internal/usecase/alerting_usecase.go:150-193 | a session dials exactly when some threshold parses; without dialling, or when connect or subscribe fails, it subscribes to and sends nothing; otherwise it subscribes to exactly the rule table's assets and sends what the receive loop sends |
| Alerting.ProcessOne | internal/usecase/alerting_usecase.go:208-237 | a trace of one `price_change` message sends exactly what that message's changes fire |
| Alerting.AskBelowThresholdFires | internal/usecase/alerting_usecase.go:218-232 | a `<=` 0.23 alert sends one notification, naming the alert and the 0.20 price, when the best ask is 0.20, whatever the best bid |
| Alerting.AskAboveThresholdSilent | internal/usecase/alerting_usecase.go:218-222 | the same alert sends nothing when the best ask is 0.30 |
| Registry.StopUser | internal/usecase/alerting_usecase.go:76-86 | the user's entry is gone afterwards; every other entry is unchanged; stopping an absent user changes nothing |
| Registry.StartUser | internal/usecase/alerting_usecase.go:109-134 | a failed alert lookup or an empty enabled list leaves the table as it was; otherwise the user's entry, new or replacing the old one, runs the fresh list; other entries are untouched |
| Registry.RestartUser | internal/usecase/alerting_usecase.go:64-74 | a user that is not found, or has no enabled alerts, or whose alerts fail to load, ends with no entry; otherwise the entry runs the current enabled list; other entries are untouched |
| Registry.RestartUserIdempotent | internal/usecase/alerting_usecase.go:64-74 | restarting twice against the same store gives the same table as restarting once |
| Registry.StartOne | internal/usecase/alerting_usecase.go:50-58 | one listed user that fails to load is skipped; one that loads is started, and no other entry changes |
| Registry.StartEach | internal/usecase/alerting_usecase.go:50-59 | a key is registered afterwards exactly when it was before or some listed user starts under it; other keys are unchanged; a started key runs the last listed user that starts there |
| Registry.StartEachAppend | internal/usecase/alerting_usecase.go:50-59 | starting a list of users is starting its first part and then its second part |
| Registry.StartEachSkipsMissingUser | internal/usecase/alerting_usecase.go:51-55 | a listed user that fails to load has the same effect as not being listed |
| Registry.StartAll | internal/usecase/alerting_usecase.go:45-62 | a failed listing returns its error and starts nothing; otherwise the call succeeds and registers exactly the listed users that load and have enabled alerts |
| Registry.StopAll | internal/usecase/alerting_usecase.go:96-107 | stopping every registered user one at a time leaves the table empty |
| Registry.RegisteredButIdle | internal/usecase/alerting_usecase.go:115-134 | a user whose only enabled alert has an unparseable threshold is registered, yet its session never dials |
| AlertUsecase.CanonicalComparator | internal/usecase/alert_usecase.go:147-154 | `<` and `<=` give `<=`, `>` and `>=` give `>=`, and every other key is `ErrInvalidComparator` |
| AlertUsecase.NormalizeComparator | internal/usecase/alert_usecase.go:146-155 | the same mapping applied to the trimmed input; a success is always `<=` or `>=` |
| AlertUsecase.NormalizeComparatorIdempotent | internal/usecase/alert_usecase.go:146-155 | a normalised comparator normalises to itself |
| AlertUsecase.NormalizeComparatorIgnoresPadding | internal/usecase/alert_usecase.go:147 | whitespace around a comparator never changes its normal form |
| AlertUsecase.ShortComparatorNormalises | internal/usecase/alert_usecase.go:148-153 | `<` and `<=` normalise to `<=`, and `>` and `>=` to `>=` |
| AlertUsecase.FirstSlugIndex | internal/usecase/alert_usecase.go:157-164 | the index of the first market with exactly that slug; absent exactly when no market has it |
| AlertUsecase.FindMarketBySlug | internal/usecase/alert_usecase.go:157-164 | the first market whose slug equals the requested one; absent exactly when no market has that slug |
| AlertUsecase.MapOutcomeToAssetID | internal/usecase/alert_usecase.go:166-190 | the outcome is trimmed and upper-cased; anything but YES or NO is an error, then fewer than two token ids is an error; YES picks the first token and NO the second, stored with the upper-case label |
| AlertUsecase.OutcomeLabelsIrrelevant | internal/usecase/alert_usecase.go:175-189 | the market's outcome labels never change the token chosen |
| AlertUsecase.MapOutcomeByKey | internal/usecase/alert_usecase.go:167 | two outcome texts with the same trimmed upper-case key map identically |
| AlertUsecase.OutcomeIgnoresPaddingAndCase | internal/usecase/alert_usecase.go:167 | any padded spelling of an outcome maps like its upper-case form |
| AlertUsecase.LookupUser | internal/usecase/alert_usecase.go:34-40 | a found user is returned; repository not-found becomes `ErrUserNotRegistered`; other errors pass through unchanged |
| AlertUsecase.LookupEvent | internal/usecase/alert_usecase.go:52-58 | an event Gamma finds is returned; Gamma's event-not-found becomes `ErrEventNotFound`; any other Gamma error passes through |
| AlertUsecase.AddAlert | internal/usecase/alert_usecase.go:33-86 | the first failing check decides the error, in this order: user, comparator, threshold, event, market, outcome; once every check passes, the repository's create error is returned, or else the checked alert with the id the repository assigned |
| AlertUsecase.CreatedAlertFields | internal/usecase/alert_usecase.go:70-85 | a created alert is enabled and owned by the user's internal id; it has the normalised comparator and the decimal's canonical text; it has the requested market slug, the first matching market's condition id, the trimmed upper-case outcome label, the market's first token for YES and second for NO, and the id the repository assigned |
| AlertUsecase.UnregisteredUserCheckedFirst | internal/usecase/alert_usecase.go:34-40 | an unregistered user gets `ErrUserNotRegistered`, whatever the other arguments |
| AlertUsecase.LocalChecksPrecedeGamma | internal/usecase/alert_usecase.go:42-58 | with a bad comparator or threshold, the result does not depend on Gamma or on the repository's create |
| AlertUsecase.SameComparatorSameAlert | internal/usecase/alert_usecase.go:42-45 | `AddAlert` sees the comparator only through its normal form |
| AlertUsecase.ShortComparatorsAreCanonicalised | internal/usecase/alert_usecase.go:42-45 | `<` creates the same alert as `<=`, and `>` the same as `>=` |
| AlertUsecase.CreatedAlertIsWatched | internal/usecase/alert_usecase.go:70-79 | when the text of the threshold the user gave reads back as that value, a created alert's stored threshold parses to the same value, so a session uses the alert |
| AlertUsecase.ListAlerts | internal/usecase/alert_usecase.go:88-98 | an unregistered user is `ErrUserNotRegistered`; any other lookup error passes through; otherwise the result is the repository's list for the user's internal id |
| AlertUsecase.SetEnabled | internal/usecase/alert_usecase.go:127-144 | a missing user is `ErrUserNotRegistered`; a write that finds no row is `ErrAlertNotFound`; any other error passes through; a successful write succeeds |
| AlertUsecase.DeleteAlert | internal/usecase/alert_usecase.go:108-125 | the same error mapping around the repository delete |
| AlertUsecase.OwnershipDecidesOverStore | internal/usecase/alert_usecase.go:108-144 | over the in-memory alert table, toggling or deleting succeeds exactly when the caller owns an alert with that id, and is `ErrAlertNotFound` otherwise |
| AlertStore.Select | internal/infra/db/alert_repo.go:34-48 | a filtered query returns exactly the matching rows, keeping id order |
| AlertStore.AscendingTail | internal/infra/db/alert_repo.go:36 | in an id-ordered table, the first row's id is below every later row's, and the rest stays ordered |
| AlertStore.ListByUser | internal/infra/db/alert_repo.go:34-40 | exactly the user's alerts, in id order |
| AlertStore.ListEnabledByUser | internal/infra/db/alert_repo.go:42-48 | exactly the user's enabled alerts, in id order |
| AlertStore.UserIdsWithEnabledAlerts | internal/infra/db/alert_repo.go:72-82 | a user id is listed exactly when that user's enabled-alert list is non-empty |
| AlertStore.SetFlag | internal/infra/db/alert_repo.go:50-54 | the matching row gets the new flag and every other row is unchanged |
| AlertStore.SetEnabled | internal/infra/db/alert_repo.go:50-59 | fails with not-found exactly when the user owns no alert with that id, and then changes nothing; otherwise the table is the same rows with only the owned one's flag changed, so id order is kept |
| AlertStore.Delete | internal/infra/db/alert_repo.go:61-70 | fails with not-found exactly when the user owns no alert with that id, and then changes nothing; otherwise exactly the owned row is removed |
| AlertStore.DisabledLeavesEnabledList | internal/infra/db/alert_repo.go:42-59 | after disabling an owned alert, it is no longer in its owner's enabled list |
| AlertStore.OtherUsersAlertUntouched | internal/infra/db/alert_repo.go:50-70 | toggling or deleting an alert id the user does not own is not-found and changes nothing |
| UserUsecase.StartOrGetUser | internal/usecase/user_usecase.go:17-35 | an existing user is returned and nothing is created; a lookup error other than not-found is returned; on not-found a user with the given Telegram id and username is created and returned with its new id, or the create error is returned |
| UserUsecase.MemGet | internal/infra/db/user_repo.go:18-27 | the in-memory lookup succeeds exactly for a registered Telegram id and returns the stored user; otherwise it fails with the repository's not-found error |
| UserUsecase.MemCreate | internal/usecase/user_usecase.go:30 | the in-memory create adds exactly one user under a new Telegram id, keeps the table consistent, and changes nothing on failure |
| UserUsecase.SecondStartChangesNothing | internal/usecase/user_usecase.go:18-34 | once a call has returned a user, calling again with the same Telegram id returns the same user and adds nothing |
| UserUsecase.FirstStartRegistersOne | internal/usecase/user_usecase.go:26-34 | the first call for a new Telegram id registers exactly one user, with the next id |
| Commands.ParseAddAlertArgs | internal/delivery/telegram/commands.go:29-35 | succeeds exactly when the text splits into five whitespace-separated words, and returns them in order, each non-empty and without whitespace |
| Commands.ParseAddAlertArgsRoundTrip | internal/delivery/telegram/commands.go:29-35 | five such words joined by spaces parse back to themselves |
| Commands.ParseEventSlug | internal/delivery/telegram/commands.go:37-43 | fails exactly on blank input; otherwise returns the input without surrounding whitespace |
| Commands.ParseEventSlugRoundTrip | internal/delivery/telegram/commands.go:37-43 | a trimmed non-empty slug with any padding parses to itself |
| Commands.ParseDigitsFrom | internal/delivery/telegram/commands.go:50 | the base-10 digit loop succeeds exactly on all-digit text worth less than 2^64, and returns its value |
| Commands.OverflowIsFinal | internal/delivery/telegram/commands.go:50 | once a prefix exceeds 2^64 - 1, the whole text cannot be accepted |
| Commands.ParseUint64 | internal/delivery/telegram/commands.go:50-53 | accepts exactly non-empty all-digit text below 2^64, and returns its value |
| Commands.ParseAlertID | internal/delivery/telegram/commands.go:45-55 | accepts exactly the inputs whose trimmed text is non-empty, all decimal digits and below 2^64, and returns that value |
| Commands.ParseAlertIDRoundTrip | internal/delivery/telegram/commands.go:45-55 | the decimal rendering of any 64-bit id, with any padding, parses back to the id |
| Commands.ParseAlertIDLeadingZeros | internal/delivery/telegram/commands.go:50 | leading zeros are accepted: `007` is 7 |
| Commands.ParseAlertIDRejectsSign | internal/delivery/telegram/commands.go:50-52 | a sign is refused: `+7` fails |
| Handlers.AlertErrorMessage | internal/delivery/telegram/handlers.go:171-191 | the generic text is given exactly to errors that are not one of the seven use-case errors |
| Handlers.AlertErrorMessageIdentifiesError | internal/delivery/telegram/handlers.go:171-191 | each use-case error can be read back from its reply, and the generic reply stands for none of them |
| Handlers.FormatPriceSummary | internal/delivery/telegram/handlers.go:237-250 | the text starts with `Price: YES ` exactly when there are at least two outcome prices, followed by the first two; otherwise it starts with `Price: bid `, its length is the two quotes' lengths plus 16, a present bid is shown right after the prefix and a missing one as `N/A`, and the text ends with ` ask ` and the present ask, or with ` N/A` when it is missing |
| Handlers.PriceSummaryUsesFirstTwoPrices | internal/delivery/telegram/handlers.go:238-239 | with two or more outcome prices, only the first two affect the text |
| Handlers.PriceSummaryFallsBackToQuotes | internal/delivery/telegram/handlers.go:241-249 | with fewer than two outcome prices, those prices do not affect the text, and a market without quotes shows `N/A` twice |
| Handlers.ShortenQuestion | internal/delivery/telegram/handlers.go:229-231 | the result is at most 80 bytes; a question over 80 bytes becomes its first 77 bytes then `...`, exactly 80; a shorter one is kept; no newline is introduced |
| Handlers.QuestionLine | internal/delivery/telegram/handlers.go:226-231 | the question line is a single line of at most 80 bytes, empty exactly when the question is blank; otherwise it is the trimmed question with newlines as spaces, cut to its first 77 bytes and `...` when the trimmed question is over 80 bytes |
| Handlers.BlockText | internal/delivery/telegram/handlers.go:232-234 | a block's length is its parts' lengths plus five, and it ends with a blank line |
| Handlers.FormatMarketBlock | internal/delivery/telegram/handlers.go:224-235 | every block ends with a blank line |
| Handlers.MarketBlockLayout | internal/delivery/telegram/handlers.go:224-235 | the block is the numbered slug, then the question line exactly when the question is not blank, then the price summary |
| Handlers.MarketBlockBounded | internal/delivery/telegram/handlers.go:229-234 | however long the question, the block exceeds its slug, number and price summary by at most 86 bytes |
| Handlers.Numbered | internal/delivery/telegram/handlers.go:205-206 | element k of the result is the function applied to position k + 1 and element k |
| Handlers.Blocks | internal/delivery/telegram/handlers.go:205-206 | block k is market k's block numbered k + 1, and every block is at least two bytes |
| Handlers.NumberedBlocks | internal/delivery/telegram/handlers.go:205-206 | numbering with the block formatter gives market k's block under number k + 1 |
| Handlers.ConcatSnoc | internal/delivery/telegram/handlers.go:211 | writing one more block appends it to the text |
| Handlers.AppendBlocks | internal/delivery/telegram/handlers.go:204-212 | the written blocks are a prefix of the markets' blocks, each of which fitted within 3800 bytes while the next did not; the remaining count is the number not written; the text is at most max(3800, header length) |
| Handlers.EndOfList | internal/delivery/telegram/handlers.go:214-220 | after the loop and the note, the text is still just the header exactly when there are no markets |
| Handlers.CloseSummary | internal/delivery/telegram/handlers.go:214-220 | given what the loop wrote and stopped at, the closed text is the summary of the blocks: the written prefix, the count of markets left out, and `(no markets)` exactly when there are no markets |
| Handlers.SummaryOfClosed | internal/delivery/telegram/handlers.go:204-222 | the loop's result closed by the note is the summary: header, written prefix, count of markets left out, and `(no markets)` exactly when there are no markets |
| Handlers.Summarise | internal/delivery/telegram/handlers.go:202-222 | the summary of a header and blocks, with the text before the suffix at most max(3800, header length) |
| Handlers.HeaderSlug | internal/delivery/telegram/handlers.go:196-199 | the summary is headed by the event's own slug when it has one, else by the requested slug; the heading is empty only when both are |
| Handlers.FormatEventSummary | internal/delivery/telegram/handlers.go:193-223 | the header names the event slug, or the requested slug when it is empty; then the longest fitting prefix of market blocks, the count of markets left out, and `(no markets)` exactly when the event has none |
| PolymarketModels.Unquote | internal/infra/polymarket/models.go:99-101 | text that starts and ends with a quote loses exactly its surrounding quotes: the result is a piece of the text with only quotes around it, and has no quote at either end; other text is unchanged |
| PolymarketModels.DecimalPayload | internal/infra/polymarket/models.go:89-101 | no text is parsed exactly when the input is the literal `null` or blank |
| PolymarketModels.UnmarshalNullableDecimal | internal/infra/polymarket/models.go:89-110 | `null` and blank input give an absent value without error; otherwise the unquoted text is parsed; success gives the parsed value, present; failure gives absent with an error and leaves the old decimal |
| PolymarketModels.MarshalNullableDecimal | internal/infra/polymarket/models.go:112-117 | an absent value is written as `null`, which decodes back to absent; a present value decodes back to itself whenever its decimal text reads back as the same value |
| PolymarketModels.UnquoteOfQuoted | internal/infra/polymarket/models.go:99-101 | unquoting a quoted text without quotes of its own gives the text back |
| PolymarketModels.TrimSpaceOfQuoted | internal/infra/polymarket/models.go:94 | a quoted text is not changed by trimming |
| PolymarketModels.PayloadOfQuoted | internal/infra/polymarket/models.go:94-101 | a quoted text's payload is its contents |
| PolymarketModels.PayloadOfBare | internal/infra/polymarket/models.go:94-101 | a bare, trimmed, non-null text is its own payload |
| PolymarketModels.NullableDecimalRoundTrip | internal/infra/polymarket/models.go:89-117 | decoding what `MarshalJSON` wrote keeps presence and, when the decimal text reads back, the value, without error |
| PolymarketModels.QuotedDecimalMatchesBare | internal/infra/polymarket/models.go:99-102 | a decimal sent as a JSON string decodes like the same decimal sent bare |
| PolymarketModels.ListShape | internal/infra/polymarket/models.go:53-58 | a payload has a shape character exactly when it is not blank, and it is the payload's first byte that is not whitespace |
| PolymarketModels.UnmarshalStringList | internal/infra/polymarket/models.go:48-87 | `null` and blank give a nil list; an array gives its elements; a JSON string fails exactly when it does not decode; any other shape is an error; on error the previous value is kept |
| PolymarketModels.StringifiedContents | internal/infra/polymarket/models.go:58-75 | a JSON string with blank contents gives nil; contents that decode as a string array give that array; other contents give a one-element list of the trimmed text |
| PolymarketModels.StringifiedArrayMatchesArray | internal/infra/polymarket/models.go:58-84 | an array sent as a JSON string decodes to the same list as the array sent directly |
| WsClient.FromNullable | internal/infra/polymarket/ws_client.go:126-137 | a price is present exactly when the wire field is valid, and then has the same value |
| WsClient.MapPriceChange | internal/infra/polymarket/ws_client.go:118-142 | one change per wire change, in order, with the same asset id and event type; each price is present exactly when its wire field is valid, with the same value |
| WsClient.FirstPriceChange | internal/infra/polymarket/ws_client.go:99-104 | the position of the first `price_change` payload; absent exactly when there is none |
| WsClient.SelectFromArray | internal/infra/polymarket/ws_client.go:99-105 | an array frame yields a message exactly when some payload is a `price_change`, and then it is the first such payload, mapped |
| WsClient.SelectFromArrayIgnoresRest | internal/infra/polymarket/ws_client.go:99-104 | payloads after the first `price_change` one never change the result |
| WsClient.DecodeMessage | internal/infra/polymarket/ws_client.go:88-116 | a blank frame is an error; an array yields its first `price_change` payload mapped, or nothing without error; an object yields itself mapped when it is a `price_change`, or nothing without error; undecodable JSON is an error |
| WsClient.Receive | internal/infra/polymarket/ws_client.go:64-81 | only a read failure is an error; a frame that does not decode is no message; otherwise the decoded message is returned |
| Logger.LevelOfKey | internal/infra/log/logger.go:19-28 | `debug` is Debug, `warn` and `warning` are Warn, `error` is Error, every other key is Info |
| Logger.ParseLevel | internal/infra/log/logger.go:18-29 | the same mapping applied to the trimmed, lower-cased input; every input selects a level |
| Logger.ParseLevelIgnoresPaddingAndCase | internal/infra/log/logger.go:19 | padding and letter case never change the selected level |
| Logger.ParseLevelUpperCase | internal/infra/log/logger.go:19 | a padded upper-case level name selects the same level as the name |
| Text.TrimSpace | internal/delivery/telegram/commands.go:38 | the result has no whitespace at either end, and is empty exactly when the input is blank |
| Text.TrimSpaceSurrounded | internal/delivery/telegram/commands.go:38 | trimming cuts only whitespace, and only at the ends |
| Text.TrimSpaceOfPadded | internal/delivery/telegram/commands.go:46 | trimming a padded trimmed text gives the text back |
| Text.Fields | internal/delivery/telegram/commands.go:30 | every field is non-empty and free of whitespace, and the input is exactly the fields in order with whitespace-only runs around them and non-empty ones between them |
| Text.FieldsOfJoin | internal/delivery/telegram/commands.go:30 | splitting words joined by single spaces gives the words back |
| Text.NewlinesToSpaces | internal/delivery/telegram/handlers.go:228 | same length, no newline left, and every other byte kept |
| Text.NatToString | internal/usecase/alerting_usecase.go:224-225 | the shortest decimal rendering of a number: all digits, worth that number, with no leading zero |

## Left out

- The goroutines, the mutex, the `done` channels, the cancel functions, the five-second stop timeout and its warning, and the watcher goroutine that closes the connection on cancellation (`alerting_usecase.go:88-93, 120-139, 185-188`). The model is about sequential logic: each registry call is one atomic map step, and a session's cancellation is its received sequence ending.
- Registry.StartUser: the Go code waits for an already registered runner to finish before publishing the new one. Only the resulting single entry per user is modelled.
- Websocket dialing, read deadlines, subscribe writes and `Close` (`ws_client.go:23-62, 83-86`). These are network I/O; a session's connection outcome is the `Feed` input.
- The order of asset ids in the subscribe request comes from Go map iteration, which is random. The model states the subscribed set.
- The Gamma HTTP client (`gamma_client.go`) and the Telegram API plumbing (`bot.go`, `HandleUpdate`, `handleCommand`, `reply`). These are network I/O; Gamma's answers are the `eventBySlug` input.
- The GORM repositories and database setup. The repositories are inputs, and `AlertStore` and `UserUsecase.MemUsers` are in-memory tables standing for them. Timestamps and soft delete are not modelled.
- UserUsecase.MemCreate: the refusal when the id space is exhausted is a choice of the in-memory table, not of the database.
- `encoding/json` and `shopspring/decimal` internals. They are foreign libraries, so JSON decoding and decimal parse/print are abstract function parameters.
- Non-ASCII whitespace and case mapping in `strings.TrimSpace`, `strings.Fields`, `strings.ToUpper` and `strings.ToLower`. Only the ASCII behaviour is modelled.
- Logging everywhere, including the log of a failed `Notify`. A notifier failure never changes what the loop does next, so its result is not an input.
- `errors.Is` wrapping is modelled as equality on the `Error` datatype.
- `EnableAlert` and `DisableAlert` are each one call of `setEnabled` with a fixed flag, and are modelled as `AlertUsecase.SetEnabled`.
- Wiring and configuration (`app.go`, `main.go`, `config.go`), `event_usecase.go`, and `NewLogger`. They only construct objects and re-map one Gamma error.
- AlertUsecase.AddAlert: the field values of a created alert are spelled out in `AlertUsecase.CreatedAlertFields`; `AddAlert` itself states that the checked alert is what is created.
- Alerting.AskBelowThresholdFires: the notification text uses the abstract decimal renderer, so the lemma shows that the alert's text is sent, not the literal digits `0.20` and `0.23`.

=== FILE: alert_store.dfy ===
/**
 * The alert repository of `internal/infra/db/alert_repo.go` as an in-memory
 * table: the live (not soft-deleted) alert rows in ascending id order, which
 * is the order the queries return. SQL, GORM and timestamps are not part of
 * this model.
 */
module AlertStore {
  import opened Wrappers
  import opened Domain

  /** Rows are kept, and queries return them, ordered by id. */
  predicate IdsAscending(rows: seq<Alert>) {
    forall i, j :: 0 <= i < j < |rows| ==> rows[i].id < rows[j].id
  }

  /** The row a `WHERE id = ? AND user_id = ?` clause selects. */
  predicate Owned(a: Alert, userId: Uint64, alertId: Uint64) {
    a.id == alertId && a.userId == userId
  }

  /** The rows satisfying a `WHERE` clause, in table order. */
  function Select(rows: seq<Alert>, keep: Alert -> bool): (r: seq<Alert>)
    ensures |r| <= |rows|
    ensures forall a :: a in r <==> a in rows && keep(a)
    ensures IdsAscending(rows) ==> IdsAscending(r)
  {
    if rows == [] then []
    else
      var rest := Select(rows[1..], keep);
      assert forall a :: a in rows[1..] ==> a in rows;
      AscendingTail(rows);
      if keep(rows[0]) then [rows[0]] + rest else rest
  }

  /** In an ascending table the first row's id is below every later row's. */
  lemma AscendingTail(rows: seq<Alert>)
    requires rows != []
    ensures IdsAscending(rows) ==> IdsAscending(rows[1..]) && forall a :: a in rows[1..] ==> rows[0].id < a.id
  {
    if IdsAscending(rows) {
      forall a | a in rows[1..] ensures rows[0].id < a.id {
        var j :| 0 <= j < |rows[1..]| && rows[1..][j] == a;
        assert rows[j + 1] == a;
      }
    }
  }

  /** `ListByUser`: the user's alerts, enabled or not, by id. */
  function ListByUser(rows: seq<Alert>, userId: Uint64): (r: seq<Alert>)
    ensures forall a :: a in r <==> a in rows && a.userId == userId
    ensures IdsAscending(rows) ==> IdsAscending(r)
  {
    Select(rows, (a: Alert) => a.userId == userId)
  }

  /** `ListEnabledByUser`: the user's enabled alerts, by id. */
  function ListEnabledByUser(rows: seq<Alert>, userId: Uint64): (r: seq<Alert>)
    ensures forall a :: a in r <==> a in rows && a.userId == userId && a.enabled
    ensures IdsAscending(rows) ==> IdsAscending(r)
  {
    Select(rows, (a: Alert) => a.userId == userId && a.enabled)
  }

  /** `ListUserIDsWithEnabledAlerts`: the distinct owners of enabled alerts. */
  function UserIdsWithEnabledAlerts(rows: seq<Alert>): (ids: set<Uint64>)
    ensures forall u :: u in ids <==> ListEnabledByUser(rows, u) != []
  {
    var ids := set a | a in rows && a.enabled :: a.userId;
    forall u ensures u in ids <==> ListEnabledByUser(rows, u) != [] {
      var listed := ListEnabledByUser(rows, u);
      if u in ids {
        var a :| a in rows && a.enabled && a.userId == u;
        assert a in listed;
      }
      if listed != [] {
        assert listed[0] in listed;
      }
    }
    ids
  }

  /** A repository write: the rows afterwards and the returned error. */
  datatype Write = Write(rows: seq<Alert>, err: Outcome<Error>)

  /** Whether any row is the user's alert with that id. */
  predicate HasOwned(rows: seq<Alert>, userId: Uint64, alertId: Uint64) {
    exists i :: 0 <= i < |rows| && Owned(rows[i], userId, alertId)
  }

  function SetFlag(rows: seq<Alert>, userId: Uint64, alertId: Uint64, enabled: bool): (r: seq<Alert>)
    ensures |r| == |rows|
    ensures forall i :: 0 <= i < |rows| ==>
      r[i] == if Owned(rows[i], userId, alertId) then rows[i].(enabled := enabled) else rows[i]
  {
    seq(|rows|, i requires 0 <= i < |rows| =>
      if Owned(rows[i], userId, alertId) then rows[i].(enabled := enabled) else rows[i])
  }

  /**
   * `SetEnabled`: sets the flag on the user's alert with that id; when no row
   * matches (zero rows affected) nothing changes and the result is `NotFound`.
   */
  function SetEnabled(rows: seq<Alert>, userId: Uint64, alertId: Uint64, enabled: bool): (w: Write)
    ensures w.err.Fail? <==> !HasOwned(rows, userId, alertId)
    ensures w.err.Fail? ==> w.err.error == NotFound && w.rows == rows
    ensures w.err.Pass? ==> w.rows == SetFlag(rows, userId, alertId, enabled)
    ensures forall a :: a in w.rows && Owned(a, userId, alertId) ==> a.enabled == enabled
    ensures forall i :: 0 <= i < |rows| && !Owned(rows[i], userId, alertId) ==> rows[i] in w.rows
    ensures IdsAscending(rows) ==> IdsAscending(w.rows)
  {
    if !HasOwned(rows, userId, alertId) then Write(rows, Fail(NotFound))
    else
      var r := SetFlag(rows, userId, alertId, enabled);
      assert forall i :: 0 <= i < |rows| ==> r[i].id == rows[i].id;
      Write(r, Pass)
  }

  /**
   * `Delete`: removes the user's alert with that id; when no row matches,
   * nothing changes and the result is `NotFound`.
   */
  function Delete(rows: seq<Alert>, userId: Uint64, alertId: Uint64): (w: Write)
    ensures w.err.Fail? <==> !HasOwned(rows, userId, alertId)
    ensures w.err.Fail? ==> w.err.error == NotFound && w.rows == rows
    ensures w.err.Pass? ==> forall a :: a in w.rows <==> a in rows && !Owned(a, userId, alertId)
    ensures IdsAscending(rows) ==> IdsAscending(w.rows)
  {
    if !HasOwned(rows, userId, alertId) then Write(rows, Fail(NotFound))
    else Write(Select(rows, (a: Alert) => !Owned(a, userId, alertId)), Pass)
  }

  /** A disabled alert no longer reaches its owner's alert session. */
  lemma DisabledLeavesEnabledList(rows: seq<Alert>, userId: Uint64, alertId: Uint64)
    requires HasOwned(rows, userId, alertId)
    ensures forall a :: a in ListEnabledByUser(SetEnabled(rows, userId, alertId, false).rows, userId) ==> a.id != alertId
  {
  }

  /** Disabling someone else's alert is refused and changes nothing. */
  lemma OtherUsersAlertUntouched(rows: seq<Alert>, userId: Uint64, alertId: Uint64, enabled: bool)
    requires forall i :: 0 <= i < |rows| && rows[i].id == alertId ==> rows[i].userId != userId
    ensures SetEnabled(rows, userId, alertId, enabled) == Write(rows, Fail(NotFound))
    ensures Delete(rows, userId, alertId) == Write(rows, Fail(NotFound))
  {
  }
}

=== FILE: alert_usecase.dfy ===
/**
 * Alert management of `internal/usecase/alert_usecase.go`: validating and
 * creating an alert, listing, enabling, disabling and deleting. The user
 * repository, the alert repository and the Gamma client are passed in as
 * their call results.
 */
module AlertUsecase {
  import opened Wrappers
  import opened Text
  import opened Domain
  import Alerting
  import AlertStore

  /** The comparator spellings accepted once trimmed, and their canonical form. */
  function CanonicalComparator(key: string): (r: Result<string, Error>)
    ensures r.Success? <==> key == "<=" || key == "<" || key == ">=" || key == ">"
    ensures r.Success? ==> (r.value == AtMost <==> key == "<=" || key == "<")
    ensures r.Success? ==> r.value == AtMost || r.value == AtLeast
    ensures r.Failure? ==> r.error == InvalidComparator
  {
    if key == "<=" || key == "<" then Success(AtMost)
    else if key == ">=" || key == ">" then Success(AtLeast)
    else Failure(InvalidComparator)
  }

  /**
   * `normalizeComparator`: after trimming, `<` and `<=` mean `<=`, `>` and
   * `>=` mean `>=`, and anything else is `ErrInvalidComparator`.
   */
  function NormalizeComparator(input: string): (r: Result<string, Error>)
    ensures var key := TrimSpace(input);
      && (r.Success? <==> key == "<=" || key == "<" || key == ">=" || key == ">")
      && (r.Success? ==> (r.value == AtMost <==> key == "<=" || key == "<"))
      && (r.Success? ==> r.value == AtMost || r.value == AtLeast)
      && (r.Failure? ==> r.error == InvalidComparator)
  {
    CanonicalComparator(TrimSpace(input))
  }

  /** A canonical comparator normalises to itself. */
  lemma NormalizeComparatorIdempotent(input: string)
    requires NormalizeComparator(input).Success?
    ensures NormalizeComparator(NormalizeComparator(input).value) == NormalizeComparator(input)
  {
    if NormalizeComparator(input).value == AtMost {
      AtMostNormalises();
    } else {
      AtLeastNormalises();
    }
  }

  /** Whitespace around a comparator never changes how it normalises. */
  lemma NormalizeComparatorIgnoresPadding(left: string, c: string, right: string)
    requires AllSpace(left) && AllSpace(right) && Trimmed(c)
    ensures NormalizeComparator(left + c + right) == NormalizeComparator(c)
  {
    TrimSpaceOfPadded(left, c, right);
    TrimSpaceOfTrimmed(c);
  }

  /** Market `k` is the first one of the event with exactly this slug. */
  predicate FirstWithSlug(markets: seq<MarketInfo>, slug: string, k: int) {
    && 0 <= k < |markets|
    && markets[k].slug == slug
    && forall j :: 0 <= j < k ==> markets[j].slug != slug
  }

  function FirstSlugIndex(markets: seq<MarketInfo>, slug: string): (k: Option<nat>)
    ensures k.Some? ==> FirstWithSlug(markets, slug, k.value)
    ensures k.None? <==> forall j :: 0 <= j < |markets| ==> markets[j].slug != slug
  {
    if markets == [] then None
    else if markets[0].slug == slug then Some(0)
    else
      match FirstSlugIndex(markets[1..], slug)
      case None => None
      case Some(k) => Some(k + 1)
  }

  /**
   * `findMarketBySlug`: the first market of the event whose slug equals the
   * requested one exactly; none when no market has it.
   */
  function FindMarketBySlug(slug: string, event: EventMarkets): (r: Option<MarketInfo>)
    ensures r.None? <==> forall j :: 0 <= j < |event.markets| ==> event.markets[j].slug != slug
    ensures r.Some? ==> exists k :: FirstWithSlug(event.markets, slug, k) && r.value == event.markets[k]
  {
    match FirstSlugIndex(event.markets, slug)
    case None => None
    case Some(k) => Some(event.markets[k])
  }

  const Yes: string := "YES"
  const No: string := "NO"

  datatype OutcomeError = UnknownOutcome | MissingTokenIds

  /** The token an alert watches and the outcome label it is stored with. */
  datatype AssetChoice = AssetChoice(assetId: string, outcome: string)

  /**
   * `mapOutcomeToAssetID`: the outcome is trimmed and upper-cased; only YES
   * and NO are accepted, and the market must list at least two token ids.
   * YES is the first token and NO the second, whatever the market's outcome
   * labels say, because both branches of `mapOutcomeToAssetID` pick the same token.
   */
  function MapOutcomeToAssetID(market: MarketInfo, outcome: string): (r: Result<AssetChoice, OutcomeError>)
    ensures var key := ToUpper(TrimSpace(outcome));
      && (key != Yes && key != No ==> r == Failure(UnknownOutcome))
      && ((key == Yes || key == No) && |market.clobTokenIds| < 2 ==> r == Failure(MissingTokenIds))
      && (r.Success? <==> (key == Yes || key == No) && |market.clobTokenIds| >= 2)
      && (r.Success? ==> r.value.outcome == key)
      && (r.Success? ==> r.value.assetId == market.clobTokenIds[if key == Yes then 0 else 1])
  {
    var normalized := ToUpper(TrimSpace(outcome));
    if normalized != Yes && normalized != No then Failure(UnknownOutcome)
    else if |market.clobTokenIds| < 2 then Failure(MissingTokenIds)
    else if |market.outcomes| >= 2 && ToUpper(market.outcomes[0]) == Yes && ToUpper(market.outcomes[1]) == No then
      if normalized == Yes then Success(AssetChoice(market.clobTokenIds[0], normalized))
      else Success(AssetChoice(market.clobTokenIds[1], normalized))
    else if normalized == Yes then Success(AssetChoice(market.clobTokenIds[0], normalized))
    else Success(AssetChoice(market.clobTokenIds[1], normalized))
  }

  /** The market's outcome labels never influence the chosen token. */
  lemma OutcomeLabelsIrrelevant(market: MarketInfo, labels: seq<string>, outcome: string)
    ensures MapOutcomeToAssetID(market.(outcomes := labels), outcome) == MapOutcomeToAssetID(market, outcome)
  {
  }

  /** The outcome text matters only through its trimmed, upper-cased key. */
  lemma MapOutcomeByKey(market: MarketInfo, o1: string, o2: string)
    requires ToUpper(TrimSpace(o1)) == ToUpper(TrimSpace(o2))
    ensures MapOutcomeToAssetID(market, o1) == MapOutcomeToAssetID(market, o2)
  {
  }

  /** Any spelling of an outcome, padded or not, picks the same token as its upper-case form. */
  lemma OutcomeIgnoresPaddingAndCase(market: MarketInfo, left: string, spelled: string, right: string)
    requires AllSpace(left) && AllSpace(right) && Trimmed(spelled)
    ensures MapOutcomeToAssetID(market, left + spelled + right) == MapOutcomeToAssetID(market, ToUpper(spelled))
  {
    PaddedKey(left, spelled, right);
    UpperKey(spelled);
    MapOutcomeByKey(market, left + spelled + right, ToUpper(spelled));
  }

  lemma PaddedKey(left: string, spelled: string, right: string)
    requires AllSpace(left) && AllSpace(right) && Trimmed(spelled)
    ensures TrimSpace(left + spelled + right) == spelled
  {
    TrimSpaceOfPadded(left, spelled, right);
  }

  lemma UpperKey(spelled: string)
    requires Trimmed(spelled)
    ensures ToUpper(TrimSpace(ToUpper(spelled))) == ToUpper(spelled)
  {
    UpperKeepsTrimmed(spelled);
    TrimSpaceOfTrimmed(ToUpper(spelled));
    UpperIdempotent(spelled);
  }

  /** The repository and Gamma calls `AddAlert` makes, as their results. */
  datatype AlertDeps = AlertDeps(
    userByTelegramId: Int64 -> Result<User, Error>,
    eventBySlug: string -> Result<EventMarkets, Error>,
    create: Alert -> Result<Uint64, Error>)

  /** The user lookup every alert command starts with: `ErrNotFound` means "not registered". */
  function LookupUser(users: Int64 -> Result<User, Error>, telegramUserId: Int64): (r: Result<User, Error>)
    ensures users(telegramUserId).Success? ==> r == users(telegramUserId)
    ensures users(telegramUserId) == Failure(NotFound) ==> r == Failure(UserNotRegistered)
    ensures users(telegramUserId).Failure? && users(telegramUserId).error != NotFound ==> r == users(telegramUserId)
  {
    match users(telegramUserId)
    case Success(user) => Success(user)
    case Failure(e) => if e == NotFound then Failure(UserNotRegistered) else Failure(e)
  }

  /** The Gamma lookup: the upstream "event not found" becomes `ErrEventNotFound`. */
  function LookupEvent(gamma: string -> Result<EventMarkets, Error>, slug: string): (r: Result<EventMarkets, Error>)
    ensures gamma(slug).Success? ==> r == gamma(slug)
    ensures gamma(slug) == Failure(UpstreamEventNotFound) ==> r == Failure(EventNotFound)
    ensures gamma(slug).Failure? && gamma(slug).error != UpstreamEventNotFound ==> r == gamma(slug)
  {
    match gamma(slug)
    case Success(event) => Success(event)
    case Failure(e) => if e == UpstreamEventNotFound then Failure(EventNotFound) else Failure(e)
  }

  /** The user, comparator and threshold checks of `AddAlert` all pass. */
  predicate LocalChecksPass(deps: AlertDeps, dec: DecimalText, telegramUserId: Int64, comparator: string, threshold: string) {
    && LookupUser(deps.userByTelegramId, telegramUserId).Success?
    && NormalizeComparator(comparator).Success?
    && dec.parse(TrimSpace(threshold)).Some?
  }

  /** Every check of `AddAlert` passes: user, comparator, threshold, event, market and outcome. */
  predicate AllChecksPass(deps: AlertDeps, dec: DecimalText, telegramUserId: Int64, eventSlug: string,
                          marketSlug: string, outcome: string, comparator: string, threshold: string) {
    && LocalChecksPass(deps, dec, telegramUserId, comparator, threshold)
    && LookupEvent(deps.eventBySlug, eventSlug).Success?
    && FindMarketBySlug(marketSlug, LookupEvent(deps.eventBySlug, eventSlug).value).Some?
    && MapOutcomeToAssetID(FindMarketBySlug(marketSlug, LookupEvent(deps.eventBySlug, eventSlug).value).value, outcome).Success?
  }

  /**
   * `AddAlert`. The checks run in a fixed order and the first failing one
   * decides the error: user, comparator, threshold, event, market, outcome.
   * The comparator and threshold are checked before Gamma is asked. Once
   * every check passes, the checked alert goes to the repository: its error
   * is returned as it is, and on success the alert comes back with the id the
   * repository assigned.
   */
  function AddAlert(deps: AlertDeps, dec: DecimalText, telegramUserId: Int64, eventSlug: string,
                    marketSlug: string, outcome: string, comparator: string, threshold: string): (r: Result<Alert, Error>)
    ensures var user := LookupUser(deps.userByTelegramId, telegramUserId);
      var cmp := NormalizeComparator(comparator);
      var t := dec.parse(TrimSpace(threshold));
      && (user.Failure? ==> r == Failure(user.error))
      && (user.Success? && cmp.Failure? ==> r == Failure(InvalidComparator))
      && (user.Success? && cmp.Success? && t.None? ==> r == Failure(InvalidThreshold))
      && (r.Success? ==> AllChecksPass(deps, dec, telegramUserId, eventSlug, marketSlug, outcome, comparator, threshold))
    ensures LocalChecksPass(deps, dec, telegramUserId, comparator, threshold) ==>
      var event := LookupEvent(deps.eventBySlug, eventSlug);
      && (event.Failure? ==> r == Failure(event.error))
      && (event.Success? && FindMarketBySlug(marketSlug, event.value).None? ==> r == Failure(MarketNotInEvent))
      && (event.Success? && FindMarketBySlug(marketSlug, event.value).Some?
          && MapOutcomeToAssetID(FindMarketBySlug(marketSlug, event.value).value, outcome).Failure? ==>
            r == Failure(InvalidOutcome))
    ensures AllChecksPass(deps, dec, telegramUserId, eventSlug, marketSlug, outcome, comparator, threshold) ==>
      && CheckedAlert(deps, dec, telegramUserId, eventSlug, marketSlug, outcome, NormalizeComparator(comparator), threshold).Success?
      && var alert := CheckedAlert(deps, dec, telegramUserId, eventSlug, marketSlug, outcome, NormalizeComparator(comparator), threshold).value;
         && (deps.create(alert).Failure? ==> r == Failure(deps.create(alert).error))
         && (deps.create(alert).Success? ==> r == Success(alert.(id := deps.create(alert).value)))
  {
    AddNormalizedLocal(deps, dec, telegramUserId, eventSlug, marketSlug, outcome, comparator, threshold);
    AddNormalizedSuccess(deps, dec, telegramUserId, eventSlug, marketSlug, outcome, comparator, threshold);
    if LocalChecksPass(deps, dec, telegramUserId, comparator, threshold) then
      AddNormalizedRemote(deps, dec, telegramUserId, eventSlug, marketSlug, outcome, comparator, threshold);
      AddNormalizedCreates(deps, dec, telegramUserId, eventSlug, marketSlug, outcome, comparator, threshold);
      AddNormalized(deps, dec, telegramUserId, eventSlug, marketSlug, outcome, NormalizeComparator(comparator), threshold)
    else
      AddNormalized(deps, dec, telegramUserId, eventSlug, marketSlug, outcome, NormalizeComparator(comparator), threshold)
  }

  /** The local checks of `AddAlert` come first, stated on its normalised form. */
  lemma AddNormalizedLocal(deps: AlertDeps, dec: DecimalText, telegramUserId: Int64, eventSlug: string,
                           marketSlug: string, outcome: string, comparator: string, threshold: string)
    ensures var r := AddNormalized(deps, dec, telegramUserId, eventSlug, marketSlug, outcome, NormalizeComparator(comparator), threshold);
      var user := LookupUser(deps.userByTelegramId, telegramUserId);
      var cmp := NormalizeComparator(comparator);
      var t := dec.parse(TrimSpace(threshold));
      && (user.Failure? ==> r == Failure(user.error))
      && (user.Success? && cmp.Failure? ==> r == Failure(InvalidComparator))
      && (user.Success? && cmp.Success? && t.None? ==> r == Failure(InvalidThreshold))
  {
  }

  /** `AddAlert` succeeds only when every check passes, stated on its normalised form. */
  lemma AddNormalizedSuccess(deps: AlertDeps, dec: DecimalText, telegramUserId: Int64, eventSlug: string,
                             marketSlug: string, outcome: string, comparator: string, threshold: string)
    ensures AddNormalized(deps, dec, telegramUserId, eventSlug, marketSlug, outcome, NormalizeComparator(comparator), threshold).Success? ==>
      AllChecksPass(deps, dec, telegramUserId, eventSlug, marketSlug, outcome, comparator, threshold)
  {
  }

  /** The Gamma-backed checks of `AddAlert`, stated on its normalised form. */
  lemma AddNormalizedRemote(deps: AlertDeps, dec: DecimalText, telegramUserId: Int64, eventSlug: string,
                            marketSlug: string, outcome: string, comparator: string, threshold: string)
    requires LocalChecksPass(deps, dec, telegramUserId, comparator, threshold)
    ensures var r := AddNormalized(deps, dec, telegramUserId, eventSlug, marketSlug, outcome, NormalizeComparator(comparator), threshold);
      var event := LookupEvent(deps.eventBySlug, eventSlug);
      && (event.Failure? ==> r == Failure(event.error))
      && (event.Success? && FindMarketBySlug(marketSlug, event.value).None? ==> r == Failure(MarketNotInEvent))
      && (event.Success? && FindMarketBySlug(marketSlug, event.value).Some?
          && MapOutcomeToAssetID(FindMarketBySlug(marketSlug, event.value).value, outcome).Failure? ==>
            r == Failure(InvalidOutcome))
  {
  }

  /** The create step of `AddAlert`, stated on its normalised form. */
  lemma AddNormalizedCreates(deps: AlertDeps, dec: DecimalText, telegramUserId: Int64, eventSlug: string,
                             marketSlug: string, outcome: string, comparator: string, threshold: string)
    ensures var r := AddNormalized(deps, dec, telegramUserId, eventSlug, marketSlug, outcome, NormalizeComparator(comparator), threshold);
      AllChecksPass(deps, dec, telegramUserId, eventSlug, marketSlug, outcome, comparator, threshold) ==>
      && CheckedAlert(deps, dec, telegramUserId, eventSlug, marketSlug, outcome, NormalizeComparator(comparator), threshold).Success?
      && var alert := CheckedAlert(deps, dec, telegramUserId, eventSlug, marketSlug, outcome, NormalizeComparator(comparator), threshold).value;
         && (deps.create(alert).Failure? ==> r == Failure(deps.create(alert).error))
         && (deps.create(alert).Success? ==> r == Success(alert.(id := deps.create(alert).value)))
  {
  }

  /**
   * The checks of `AddAlert`, with the comparator already normalised, in
   * their order; when all pass, the alert to store, without an id yet.
   */
  function CheckedAlert(deps: AlertDeps, dec: DecimalText, telegramUserId: Int64, eventSlug: string,
                        marketSlug: string, outcome: string, comparator: Result<string, Error>,
                        threshold: string): Result<Alert, Error>
  {
    var user :- LookupUser(deps.userByTelegramId, telegramUserId);
    var cmp :- comparator;
    match dec.parse(TrimSpace(threshold))
    case None => Failure(InvalidThreshold)
    case Some(t) =>
      var event :- LookupEvent(deps.eventBySlug, eventSlug);
      match FindMarketBySlug(marketSlug, event)
      case None => Failure(MarketNotInEvent)
      case Some(market) =>
        match MapOutcomeToAssetID(market, outcome)
        case Failure(_) => Failure(InvalidOutcome)
        case Success(choice) =>
          Success(Alert(0, user.id, market.slug, market.conditionId, choice.outcome, choice.assetId, cmp, dec.render(t), true))
  }

  /** `AddAlert` with the comparator already normalised: the checks, then the repository create. */
  function AddNormalized(deps: AlertDeps, dec: DecimalText, telegramUserId: Int64, eventSlug: string,
                         marketSlug: string, outcome: string, comparator: Result<string, Error>,
                         threshold: string): Result<Alert, Error>
  {
    var alert :- CheckedAlert(deps, dec, telegramUserId, eventSlug, marketSlug, outcome, comparator, threshold);
    match deps.create(alert)
    case Failure(e) => Failure(e)
    case Success(id) => Success(alert.(id := id))
  }

  /**
   * What `AddAlert` stores: the alert is enabled, carries the owner's internal
   * id, the canonical comparator, the decimal's canonical text, the requested
   * market slug, the first matching market's condition id, one of that
   * market's tokens and a YES/NO label, and gets its id from the repository.
   */
  lemma CreatedAlertFields(deps: AlertDeps, dec: DecimalText, telegramUserId: Int64, eventSlug: string,
                           marketSlug: string, outcome: string, comparator: string, threshold: string)
    requires AddAlert(deps, dec, telegramUserId, eventSlug, marketSlug, outcome, comparator, threshold).Success?
    ensures var a := AddAlert(deps, dec, telegramUserId, eventSlug, marketSlug, outcome, comparator, threshold).value;
      && a.enabled
      && a.userId == LookupUser(deps.userByTelegramId, telegramUserId).value.id
      && a.comparator == NormalizeComparator(comparator).value
      && a.threshold == dec.render(dec.parse(TrimSpace(threshold)).value)
      && a.marketSlug == marketSlug
      && a.outcome == ToUpper(TrimSpace(outcome))
      && (a.outcome == Yes || a.outcome == No)
      && LookupEvent(deps.eventBySlug, eventSlug).Success?
      && (exists k :: FirstWithSlug(LookupEvent(deps.eventBySlug, eventSlug).value.markets, marketSlug, k)
            && a.conditionId == LookupEvent(deps.eventBySlug, eventSlug).value.markets[k].conditionId
            && |LookupEvent(deps.eventBySlug, eventSlug).value.markets[k].clobTokenIds| >= 2
            && a.assetId == LookupEvent(deps.eventBySlug, eventSlug).value.markets[k].clobTokenIds[if a.outcome == Yes then 0 else 1])
      && deps.create(a.(id := 0)) == Success(a.id)
  {
    var r := AddAlert(deps, dec, telegramUserId, eventSlug, marketSlug, outcome, comparator, threshold);
    var user := LookupUser(deps.userByTelegramId, telegramUserId);
    var cmp := NormalizeComparator(comparator);
    var t := dec.parse(TrimSpace(threshold));
    assert r == AddNormalized(deps, dec, telegramUserId, eventSlug, marketSlug, outcome, cmp, threshold);
    assert user.Success? && cmp.Success? && t.Some?;
    var event := LookupEvent(deps.eventBySlug, eventSlug);
    assert event.Success?;
    var market := FindMarketBySlug(marketSlug, event.value);
    assert market.Some?;
    var choice := MapOutcomeToAssetID(market.value, outcome);
    assert choice.Success?;
    var alert := Alert(0, user.value.id, market.value.slug, market.value.conditionId, choice.value.outcome,
                       choice.value.assetId, cmp.value, dec.render(t.value), true);
    assert deps.create(alert).Success? && r == Success(alert.(id := deps.create(alert).value));
    var k :| FirstWithSlug(event.value.markets, marketSlug, k) && market.value == event.value.markets[k];
    assert choice.value.assetId == event.value.markets[k].clobTokenIds[if choice.value.outcome == Yes then 0 else 1];
  }

  /** An unregistered user is refused before any other argument is looked at. */
  lemma UnregisteredUserCheckedFirst(deps: AlertDeps, dec: DecimalText, telegramUserId: Int64,
                                     e1: string, m1: string, o1: string, c1: string, t1: string,
                                     e2: string, m2: string, o2: string, c2: string, t2: string)
    requires deps.userByTelegramId(telegramUserId) == Failure(NotFound)
    ensures AddAlert(deps, dec, telegramUserId, e1, m1, o1, c1, t1) == Failure(UserNotRegistered)
    ensures AddAlert(deps, dec, telegramUserId, e1, m1, o1, c1, t1) == AddAlert(deps, dec, telegramUserId, e2, m2, o2, c2, t2)
  {
  }

  /** With a bad comparator or threshold, Gamma and the repository are never consulted. */
  lemma LocalChecksPrecedeGamma(deps: AlertDeps, gamma: string -> Result<EventMarkets, Error>, create: Alert -> Result<Uint64, Error>,
                                dec: DecimalText, telegramUserId: Int64, eventSlug: string, marketSlug: string,
                                outcome: string, comparator: string, threshold: string)
    requires NormalizeComparator(comparator).Failure? || dec.parse(TrimSpace(threshold)).None?
    ensures AddAlert(deps.(eventBySlug := gamma, create := create), dec, telegramUserId, eventSlug, marketSlug, outcome, comparator, threshold)
         == AddAlert(deps, dec, telegramUserId, eventSlug, marketSlug, outcome, comparator, threshold)
  {
  }

  /** `<` is stored as `<=` and `>` as `>=`: the short spellings create the same alert. */
  lemma ShortComparatorsAreCanonicalised(deps: AlertDeps, dec: DecimalText, telegramUserId: Int64, eventSlug: string,
                                         marketSlug: string, outcome: string, threshold: string)
    ensures AddAlert(deps, dec, telegramUserId, eventSlug, marketSlug, outcome, "<", threshold)
         == AddAlert(deps, dec, telegramUserId, eventSlug, marketSlug, outcome, AtMost, threshold)
    ensures AddAlert(deps, dec, telegramUserId, eventSlug, marketSlug, outcome, ">", threshold)
         == AddAlert(deps, dec, telegramUserId, eventSlug, marketSlug, outcome, AtLeast, threshold)
  {
    ShortComparatorNormalises();
    SameComparatorSameAlert(deps, dec, telegramUserId, eventSlug, marketSlug, outcome, "<", AtMost, threshold);
    SameComparatorSameAlert(deps, dec, telegramUserId, eventSlug, marketSlug, outcome, ">", AtLeast, threshold);
  }

  /** `AddAlert` sees the comparator only through its normal form. */
  lemma SameComparatorSameAlert(deps: AlertDeps, dec: DecimalText, telegramUserId: Int64, eventSlug: string,
                                marketSlug: string, outcome: string, c1: string, c2: string, threshold: string)
    requires NormalizeComparator(c1) == NormalizeComparator(c2)
    ensures AddAlert(deps, dec, telegramUserId, eventSlug, marketSlug, outcome, c1, threshold)
         == AddAlert(deps, dec, telegramUserId, eventSlug, marketSlug, outcome, c2, threshold)
  {
    var cmp := NormalizeComparator(c1);
    assert AddAlert(deps, dec, telegramUserId, eventSlug, marketSlug, outcome, c1, threshold)
        == AddNormalized(deps, dec, telegramUserId, eventSlug, marketSlug, outcome, cmp, threshold);
    assert AddAlert(deps, dec, telegramUserId, eventSlug, marketSlug, outcome, c2, threshold)
        == AddNormalized(deps, dec, telegramUserId, eventSlug, marketSlug, outcome, cmp, threshold);
  }

  lemma ShortComparatorNormalises()
    ensures NormalizeComparator("<") == NormalizeComparator(AtMost) == Success(AtMost)
    ensures NormalizeComparator(">") == NormalizeComparator(AtLeast) == Success(AtLeast)
  {
    LessNormalises();
    AtMostNormalises();
    GreaterNormalises();
    AtLeastNormalises();
  }

  lemma LessNormalises()
    ensures NormalizeComparator("<") == Success(AtMost)
  {
    assert NoSpace("<");
    assert CanonicalComparator("<") == Success(AtMost);
    NormalizesTo("<", AtMost);
  }

  lemma AtMostNormalises()
    ensures NormalizeComparator(AtMost) == Success(AtMost)
  {
    assert NoSpace(AtMost);
    assert CanonicalComparator(AtMost) == Success(AtMost);
    NormalizesTo(AtMost, AtMost);
  }

  lemma GreaterNormalises()
    ensures NormalizeComparator(">") == Success(AtLeast)
  {
    assert NoSpace(">");
    assert CanonicalComparator(">") == Success(AtLeast);
    NormalizesTo(">", AtLeast);
  }

  lemma AtLeastNormalises()
    ensures NormalizeComparator(AtLeast) == Success(AtLeast)
  {
    assert NoSpace(AtLeast);
    assert CanonicalComparator(AtLeast) == Success(AtLeast);
    NormalizesTo(AtLeast, AtLeast);
  }

  lemma NormalizesTo(w: string, c: string)
    requires w != [] && NoSpace(w) && CanonicalComparator(w) == Success(c)
    ensures NormalizeComparator(w) == Success(c)
  {
    TrimSpaceOfWord(w);
  }

  /**
   * When the text of the threshold the user gave reads back as the same
   * value, a created alert is one its alert session will use: its stored
   * threshold parses to exactly that value.
   */
  lemma CreatedAlertIsWatched(deps: AlertDeps, dec: DecimalText, telegramUserId: Int64, eventSlug: string,
                              marketSlug: string, outcome: string, comparator: string, threshold: string)
    requires forall d :: dec.parse(TrimSpace(threshold)) == Some(d) ==> dec.parse(dec.render(d)) == Some(d)
    requires AddAlert(deps, dec, telegramUserId, eventSlug, marketSlug, outcome, comparator, threshold).Success?
    ensures var a := AddAlert(deps, dec, telegramUserId, eventSlug, marketSlug, outcome, comparator, threshold).value;
      && Alerting.Usable(a, a.assetId, dec)
      && dec.parse(a.threshold) == dec.parse(TrimSpace(threshold))
  {
    CreatedAlertFields(deps, dec, telegramUserId, eventSlug, marketSlug, outcome, comparator, threshold);
  }

  /** `ListAlerts`: the user's alerts from the repository, after the user lookup. */
  function ListAlerts(users: Int64 -> Result<User, Error>, listByUser: Uint64 -> Result<seq<Alert>, Error>,
                      telegramUserId: Int64): (r: Result<seq<Alert>, Error>)
    ensures users(telegramUserId) == Failure(NotFound) ==> r == Failure(UserNotRegistered)
    ensures users(telegramUserId).Failure? && users(telegramUserId).error != NotFound ==> r == Failure(users(telegramUserId).error)
    ensures users(telegramUserId).Success? ==> r == listByUser(users(telegramUserId).value.id)
  {
    var user :- LookupUser(users, telegramUserId);
    listByUser(user.id)
  }

  /** How a repository write error reaches the caller: `ErrNotFound` becomes `ErrAlertNotFound`. */
  function AlertWriteError(e: Error): Error {
    if e == NotFound then AlertNotFound else e
  }

  /**
   * `setEnabled` (behind `EnableAlert` and `DisableAlert`): a missing user
   * gives `ErrUserNotRegistered`, a write that finds no row gives
   * `ErrAlertNotFound`, any other error passes through unchanged.
   */
  function SetEnabled(users: Int64 -> Result<User, Error>, setEnabled: (Uint64, Uint64, bool) -> Outcome<Error>,
                      telegramUserId: Int64, alertId: Uint64, enabled: bool): (r: Outcome<Error>)
    ensures users(telegramUserId) == Failure(NotFound) ==> r == Fail(UserNotRegistered)
    ensures users(telegramUserId).Failure? && users(telegramUserId).error != NotFound ==> r == Fail(users(telegramUserId).error)
    ensures users(telegramUserId).Success? ==>
      var w := setEnabled(users(telegramUserId).value.id, alertId, enabled);
      && (w.Pass? ==> r == Pass)
      && (w == Fail(NotFound) ==> r == Fail(AlertNotFound))
      && (w.Fail? && w.error != NotFound ==> r == w)
  {
    match LookupUser(users, telegramUserId)
    case Failure(e) => Fail(e)
    case Success(user) =>
      match setEnabled(user.id, alertId, enabled)
      case Pass => Pass
      case Fail(e) => Fail(AlertWriteError(e))
  }

  /** `DeleteAlert`: the same error mapping as `setEnabled`, around the repository delete. */
  function DeleteAlert(users: Int64 -> Result<User, Error>, delete: (Uint64, Uint64) -> Outcome<Error>,
                       telegramUserId: Int64, alertId: Uint64): (r: Outcome<Error>)
    ensures users(telegramUserId) == Failure(NotFound) ==> r == Fail(UserNotRegistered)
    ensures users(telegramUserId).Failure? && users(telegramUserId).error != NotFound ==> r == Fail(users(telegramUserId).error)
    ensures users(telegramUserId).Success? ==>
      var w := delete(users(telegramUserId).value.id, alertId);
      && (w.Pass? ==> r == Pass)
      && (w == Fail(NotFound) ==> r == Fail(AlertNotFound))
      && (w.Fail? && w.error != NotFound ==> r == w)
  {
    match LookupUser(users, telegramUserId)
    case Failure(e) => Fail(e)
    case Success(user) =>
      match delete(user.id, alertId)
      case Pass => Pass
      case Fail(e) => Fail(AlertWriteError(e))
  }

  /**
   * Over the in-memory alert table, toggling or deleting succeeds exactly when
   * the caller owns an alert with that id, and is `ErrAlertNotFound` otherwise,
   * including for an alert id that belongs to someone else.
   */
  lemma OwnershipDecidesOverStore(users: Int64 -> Result<User, Error>, rows: seq<Alert>,
                                  telegramUserId: Int64, alertId: Uint64, enabled: bool)
    requires users(telegramUserId).Success?
    ensures var owner := users(telegramUserId).value.id;
      var toggled := SetEnabled(users, (u: Uint64, a: Uint64, e: bool) => AlertStore.SetEnabled(rows, u, a, e).err, telegramUserId, alertId, enabled);
      var deleted := DeleteAlert(users, (u: Uint64, a: Uint64) => AlertStore.Delete(rows, u, a).err, telegramUserId, alertId);
      && (toggled == Pass <==> AlertStore.HasOwned(rows, owner, alertId))
      && (toggled.Fail? ==> toggled.error == AlertNotFound)
      && (deleted == Pass <==> AlertStore.HasOwned(rows, owner, alertId))
      && (deleted.Fail? ==> deleted.error == AlertNotFound)
  {
  }
}

=== FILE: alerting.dfy ===
/**
 * The alert evaluation engine of `internal/usecase/alerting_usecase.go`:
 * price selection, the trigger test, the per-asset rule table a session is
 * built from, and the session's receive loop as a function from the finite
 * sequence of `Receive` results it sees to the `Notify` calls it makes.
 *
 * The goroutine, its context and the close-on-cancel watcher are not part of
 * this model: cancellation is the received sequence simply ending.
 */
module Alerting {
  import opened Wrappers
  import opened Text
  import opened Domain

  /** The field a comparator prefers: the ask for `<=`, the bid for any other text. */
  function Preferred(comparator: string, change: PriceChange): Option<Decimal> {
    if comparator == AtMost then change.bestAsk else change.bestBid
  }

  /**
   * `selectPrice`: the preferred field when present, else the last trade
   * price, else nothing.
   */
  function SelectPrice(comparator: string, change: PriceChange): (p: Option<Decimal>)
    ensures comparator == AtMost && change.bestAsk.Some? ==> p == change.bestAsk
    ensures comparator != AtMost && change.bestBid.Some? ==> p == change.bestBid
    ensures Preferred(comparator, change).None? ==> p == change.price
    ensures p.None? <==> Preferred(comparator, change).None? && change.price.None?
  {
    if comparator == AtMost && change.bestAsk.Some? then change.bestAsk
    else if comparator != AtMost && change.bestBid.Some? then change.bestBid
    else if change.price.Some? then change.price
    else None
  }

  /** `decimal.Cmp`: -1, 0 or 1 as `a` is below, equal to or above `b`. */
  function Cmp(a: Decimal, b: Decimal): int {
    if a < b then -1 else if a == b then 0 else 1
  }

  /**
   * `shouldNotify`: `<=` fires at or below the threshold, every other
   * comparator at or above it; both bounds are inclusive.
   */
  function ShouldNotify(comparator: string, price: Decimal, threshold: Decimal): (fire: bool)
    ensures comparator == AtMost ==> (fire <==> price <= threshold)
    ensures comparator != AtMost ==> (fire <==> price >= threshold)
  {
    var c := Cmp(price, threshold);
    if comparator == AtMost then c <= 0 else c >= 0
  }

  /** A price exactly at the threshold fires for either direction. */
  lemma ThresholdIsInclusive(comparator: string, threshold: Decimal)
    ensures ShouldNotify(comparator, threshold, threshold)
  {
  }

  /** A firing `<=` alert still fires at any lower price, a `>=` one at any higher price. */
  lemma ShouldNotifyMonotone(comparator: string, p: Decimal, q: Decimal, threshold: Decimal)
    requires ShouldNotify(comparator, p, threshold)
    ensures comparator == AtMost && q <= p ==> ShouldNotify(comparator, q, threshold)
    ensures comparator != AtMost && q >= p ==> ShouldNotify(comparator, q, threshold)
  {
  }

  /** `alertEval`: what a session keeps of one alert. */
  datatype Rule = Rule(alertId: Uint64, marketSlug: string, outcome: string, comparator: string, threshold: Decimal)

  function ToRule(a: Alert, threshold: Decimal): Rule {
    Rule(a.id, a.marketSlug, a.outcome, a.comparator, threshold)
  }

  /** An alert whose stored threshold parses, for the given asset. */
  predicate Usable(a: Alert, asset: string, dec: DecimalText) {
    a.assetId == asset && dec.parse(a.threshold).Some?
  }

  /**
   * The rules for one asset: the usable alerts for it, in input order. This is
   * the reference the session's table is checked against.
   */
  function RulesFor(alerts: seq<Alert>, asset: string, dec: DecimalText): (rules: seq<Rule>)
    ensures |rules| <= |alerts|
    ensures forall r :: r in rules <==>
      exists i :: 0 <= i < |alerts| && Usable(alerts[i], asset, dec) && r == ToRule(alerts[i], dec.parse(alerts[i].threshold).value)
  {
    if alerts == [] then []
    else
      var rest := RulesFor(alerts[1..], asset, dec);
      assert forall i :: 1 <= i < |alerts| ==> alerts[i] == alerts[1..][i - 1];
      if Usable(alerts[0], asset, dec) then [ToRule(alerts[0], dec.parse(alerts[0].threshold).value)] + rest
      else rest
  }

  lemma {:induction false} RulesForSnoc(alerts: seq<Alert>, a: Alert, asset: string, dec: DecimalText)
    ensures RulesFor(alerts + [a], asset, dec)
         == RulesFor(alerts, asset, dec) + (if Usable(a, asset, dec) then [ToRule(a, dec.parse(a.threshold).value)] else [])
    decreases |alerts|
  {
    if alerts == [] {
      assert [] + [a] == [a];
      assert [a][1..] == [];
    } else {
      assert (alerts + [a])[1..] == alerts[1..] + [a];
      RulesForSnoc(alerts[1..], a, asset, dec);
    }
  }

  /**
   * The rule table `runUser` builds: alerts whose threshold does not parse are
   * dropped, the others are appended under their asset id in input order.
   * The keys are exactly the assets of usable alerts, and each key holds
   * exactly `RulesFor` that asset.
   */
  function BuildRules(alerts: seq<Alert>, dec: DecimalText): (table: map<string, seq<Rule>>)
    ensures forall k :: k in table <==> exists i :: 0 <= i < |alerts| && Usable(alerts[i], k, dec)
    ensures forall k :: RulesFor(alerts, k, dec) == (if k in table then table[k] else [])
    decreases |alerts|
  {
    if alerts == [] then map[]
    else
      var init := alerts[..|alerts| - 1];
      var a := alerts[|alerts| - 1];
      assert alerts == init + [a];
      var table := BuildRules(init, dec);
      assert forall i :: 0 <= i < |init| ==> alerts[i] == init[i];
      forall k
        ensures RulesFor(alerts, k, dec)
             == RulesFor(init, k, dec) + (if Usable(a, k, dec) then [ToRule(a, dec.parse(a.threshold).value)] else [])
      {
        RulesForSnoc(init, a, k, dec);
      }
      match dec.parse(a.threshold)
      case None => table
      case Some(t) =>
        table[a.assetId := (if a.assetId in table then table[a.assetId] else []) + [ToRule(a, t)]]
  }

  /** A session has nothing to subscribe to exactly when no alert threshold parses. */
  lemma NoRulesIffNoUsableAlert(alerts: seq<Alert>, dec: DecimalText)
    ensures BuildRules(alerts, dec) == map[] <==> forall i :: 0 <= i < |alerts| ==> dec.parse(alerts[i].threshold).None?
  {
    var table := BuildRules(alerts, dec);
    if i :| 0 <= i < |alerts| && dec.parse(alerts[i].threshold).Some? {
      assert Usable(alerts[i], alerts[i].assetId, dec);
      assert alerts[i].assetId in table;
    } else {
      assert table.Keys == {};
    }
  }

  datatype Notification = Notification(telegramUserId: Int64, text: string)

  /** The closing ` (price p)` of a notification. */
  function PriceNote(price: Decimal, dec: DecimalText): string {
    " (price " + dec.render(price) + ")"
  }

  /** `Alert #id triggered: slug outcome cmp threshold (price p)`. */
  function AlertText(rule: Rule, price: Decimal, dec: DecimalText): string {
    var what := rule.marketSlug + " " + rule.outcome + " " + rule.comparator + " " + dec.render(rule.threshold);
    "Alert #" + NatToString(rule.alertId) + " triggered: " + what + PriceNote(price, dec)
  }

  /**
   * The alert id can be read back from a notification: it is the digits after
   * `Alert #`, which end at the first space; and the text closes with the
   * price that fired.
   */
  lemma AlertTextReadable(rule: Rule, price: Decimal, dec: DecimalText)
    ensures var text := AlertText(rule, price, dec);
      && |text| > 7 && text[..7] == "Alert #"
      && (exists m :: 7 < m < |text| && text[m] == ' ' && AllDigits(text[7..m]) && DigitsValue(text[7..m]) == rule.alertId)
      && |text| > |PriceNote(price, dec)| && text[|text| - |PriceNote(price, dec)|..] == PriceNote(price, dec)
  {
    var id := NatToString(rule.alertId);
    var what := rule.marketSlug + " " + rule.outcome + " " + rule.comparator + " " + dec.render(rule.threshold);
    var note := PriceNote(price, dec);
    var a := "Alert #" + id;
    var z := a + " triggered: ";
    var y := z + what;
    var text := AlertText(rule, price, dec);
    assert text == y + note;
    assert text[..|y|] == y && text[|y|..] == note;
    assert y[..|z|] == z;
    assert z[..|a|] == a && z[|a|] == ' ';
    assert a[..7] == "Alert #" && a[7..] == id;
    var m := 7 + |id|;
    assert text[m] == ' ';
    assert text[7..m] == id by {
      forall k | 0 <= k < |id|
        ensures text[7 + k] == id[k]
      {
        assert text[7 + k] == y[7 + k] == z[7 + k] == a[7 + k];
      }
    }
    assert text[..7] == "Alert #" by {
      forall k | 0 <= k < 7
        ensures text[k] == a[k]
      {
        assert text[k] == y[k] == z[k];
      }
    }
  }

  /**
   * The notification a rule sends for a change: one exactly when the
   * comparator selects a price from the change and that price crosses the
   * threshold, addressed to the session's chat and naming that price.
   */
  function Fire(rule: Rule, change: PriceChange, chat: Int64, dec: DecimalText): (r: Option<Notification>)
    ensures r.Some? <==> SelectPrice(rule.comparator, change).Some?
                         && ShouldNotify(rule.comparator, SelectPrice(rule.comparator, change).value, rule.threshold)
    ensures r.Some? ==> r.value.telegramUserId == chat
                        && r.value.text == AlertText(rule, SelectPrice(rule.comparator, change).value, dec)
  {
    match SelectPrice(rule.comparator, change)
    case None => None
    case Some(p) =>
      if ShouldNotify(rule.comparator, p, rule.threshold) then Some(Notification(chat, AlertText(rule, p, dec)))
      else None
  }

  /** The present entries of `fired`, in order: one element per present entry. */
  function Present<T>(fired: seq<Option<T>>): (r: seq<T>)
    ensures |r| <= |fired|
  {
    if fired == [] then []
    else
      (if fired[0].Some? then [fired[0].value] else []) + Present(fired[1..])
  }

  lemma {:induction false} PresentAppend<T>(a: seq<Option<T>>, b: seq<Option<T>>)
    ensures Present(a + b) == Present(a) + Present(b)
    decreases |a|
  {
    if a == [] {
      assert a + b == b;
    } else {
      assert (a + b)[0] == a[0] && (a + b)[1..] == a[1..] + b;
      PresentAppend(a[1..], b);
    }
  }

  /** What each rule, in order, fires on the change. */
  function Fired(rules: seq<Rule>, change: PriceChange, chat: Int64, dec: DecimalText): (fired: seq<Option<Notification>>)
    ensures |fired| == |rules|
  {
    if rules == [] then [] else [Fire(rules[0], change, chat, dec)] + Fired(rules[1..], change, chat, dec)
  }

  /**
   * The rules for one change: one notification per firing rule, in rule
   * order.
   */
  function EvaluateRules(rules: seq<Rule>, change: PriceChange, chat: Int64, dec: DecimalText): (sent: seq<Notification>)
    ensures |sent| <= |rules|
    ensures forall n :: n in sent <==> exists j :: 0 <= j < |rules| && Fire(rules[j], change, chat, dec) == Some(n)
  {
    if rules == [] then []
    else
      var rest := EvaluateRules(rules[1..], change, chat, dec);
      assert forall j :: 1 <= j < |rules| ==> rules[j] == rules[1..][j - 1];
      match Fire(rules[0], change, chat, dec)
      case None => rest
      case Some(n) => [n] + rest
  }

  /** One notification per firing rule, in rule order, and nothing else. */
  lemma {:induction false} EvaluateRulesOrder(rules: seq<Rule>, change: PriceChange, chat: Int64, dec: DecimalText)
    ensures EvaluateRules(rules, change, chat, dec) == Present(Fired(rules, change, chat, dec))
    decreases |rules|
  {
    if rules != [] {
      EvaluateRulesOrder(rules[1..], change, chat, dec);
      var fired := Fired(rules, change, chat, dec);
      assert fired[0] == Fire(rules[0], change, chat, dec) && fired[1..] == Fired(rules[1..], change, chat, dec);
    }
  }

  function RulesOf(table: map<string, seq<Rule>>, asset: string): seq<Rule> {
    if asset in table then table[asset] else []
  }

  /** The number of (change, matching rule) pairs of a message. */
  function PairCount(table: map<string, seq<Rule>>, changes: seq<PriceChange>): nat {
    if changes == [] then 0 else |RulesOf(table, changes[0].assetId)| + PairCount(table, changes[1..])
  }

  /** A change fires rule `j` of its asset, yielding `n`. */
  predicate FiresAt(table: map<string, seq<Rule>>, change: PriceChange, j: int, chat: Int64, dec: DecimalText, n: Notification) {
    && change.assetId in table
    && 0 <= j < |table[change.assetId]|
    && Fire(table[change.assetId][j], change, chat, dec) == Some(n)
  }

  /** The rows of `grid` one after another. */
  function Concat<T>(grid: seq<seq<T>>): seq<T> {
    if grid == [] then [] else grid[0] + Concat(grid[1..])
  }

  /** What each rule of the change's asset fires on it; nothing for an asset without rules. */
  function Row(table: map<string, seq<Rule>>, change: PriceChange, chat: Int64, dec: DecimalText): seq<Option<Notification>> {
    if change.assetId in table then Fired(table[change.assetId], change, chat, dec) else []
  }

  /** Row `i` is what the rules fire on change `i`. */
  function Grid(table: map<string, seq<Rule>>, changes: seq<PriceChange>, chat: Int64, dec: DecimalText): (grid: seq<seq<Option<Notification>>>)
    ensures |grid| == |changes|
  {
    if changes == [] then [] else [Row(table, changes[0], chat, dec)] + Grid(table, changes[1..], chat, dec)
  }

  /**
   * The changes of one message, in order; a change for an asset without rules
   * is skipped. One notification per (change, rule) pair that fires, in
   * change order and then rule order.
   */
  function EvaluateChanges(table: map<string, seq<Rule>>, changes: seq<PriceChange>, chat: Int64, dec: DecimalText): (sent: seq<Notification>)
    ensures |sent| <= PairCount(table, changes)
    ensures forall n :: n in sent <==>
      exists i, j :: 0 <= i < |changes| && FiresAt(table, changes[i], j, chat, dec, n)
  {
    if changes == [] then []
    else
      var change := changes[0];
      var here := if change.assetId in table then EvaluateRules(table[change.assetId], change, chat, dec) else [];
      var rest := EvaluateChanges(table, changes[1..], chat, dec);
      assert forall i :: 1 <= i < |changes| ==> changes[i] == changes[1..][i - 1];
      forall n ensures n in here <==> exists j :: FiresAt(table, change, j, chat, dec, n) {
        if n in here {
          var j :| 0 <= j < |table[change.assetId]| && Fire(table[change.assetId][j], change, chat, dec) == Some(n);
          assert FiresAt(table, change, j, chat, dec, n);
        }
      }
      here + rest
  }

  /**
   * One notification per (change, rule) pair that fires, ordered by change
   * and then by rule, and nothing else.
   */
  lemma {:induction false} EvaluateChangesOrder(table: map<string, seq<Rule>>, changes: seq<PriceChange>, chat: Int64, dec: DecimalText)
    ensures EvaluateChanges(table, changes, chat, dec) == Present(Concat(Grid(table, changes, chat, dec)))
    decreases |changes|
  {
    if changes != [] {
      var change := changes[0];
      if change.assetId in table {
        EvaluateRulesOrder(table[change.assetId], change, chat, dec);
      }
      EvaluateChangesOrder(table, changes[1..], chat, dec);
      var grid := Grid(table, changes, chat, dec);
      assert grid[0] == Row(table, change, chat, dec) && grid[1..] == Grid(table, changes[1..], chat, dec);
      PresentAppend(Row(table, change, chat, dec), Concat(grid[1..]));
    }
  }

  /** One received item that decoded: nil or non-`price_change` messages send nothing. */
  function EvaluateMessage(table: map<string, seq<Rule>>, msg: Option<PriceChangeMessage>, chat: Int64, dec: DecimalText): (sent: seq<Notification>)
    ensures msg.None? || msg.value.eventType != PriceChangeEvent ==> sent == []
    ensures msg.Some? ==> |sent| <= PairCount(table, msg.value.priceChanges)
  {
    if msg.None? || msg.value.eventType != PriceChangeEvent then []
    else EvaluateChanges(table, msg.value.priceChanges, chat, dec)
  }

  /** What one `Receive` call returned: a message, nil, or an error. */
  type FeedItem = Result<Option<PriceChangeMessage>, string>

  predicate NoFailure(trace: seq<FeedItem>) {
    forall i :: 0 <= i < |trace| ==> trace[i].Success?
  }

  /**
   * The receive loop: items are handled in order until the first receive
   * error, which ends the session. The result is the sequence of `Notify`
   * calls; their outcome is only logged, so it is not an input here.
   */
  function Process(table: map<string, seq<Rule>>, trace: seq<FeedItem>, chat: Int64, dec: DecimalText): seq<Notification> {
    if trace == [] then []
    else
      match trace[0]
      case Failure(_) => []
      case Success(msg) => EvaluateMessage(table, msg, chat, dec) + Process(table, trace[1..], chat, dec)
  }

  /** Item `t` is reached: it and everything before it was received without error. */
  predicate Reached(trace: seq<FeedItem>, t: int) {
    0 <= t < |trace| && forall i :: 0 <= i <= t ==> trace[i].Success?
  }

  /** After a successful first item, item `t + 1` is reached exactly when item `t` of the rest is. */
  lemma ReachedTail(trace: seq<FeedItem>, t: int)
    requires trace != [] && trace[0].Success? && 0 <= t
    ensures Reached(trace, t + 1) <==> Reached(trace[1..], t)
    ensures t < |trace| - 1 ==> trace[t + 1] == trace[1..][t]
  {
    if Reached(trace[1..], t) {
      forall i | 0 <= i <= t + 1
        ensures trace[i].Success?
      {
        if i > 0 {
          assert trace[i] == trace[1..][i - 1];
        }
      }
    }
    if Reached(trace, t + 1) {
      forall i | 0 <= i <= t
        ensures trace[1..][i].Success?
      {
        assert trace[1..][i] == trace[i + 1];
      }
    }
  }

  /**
   * A notification is sent exactly when some item reached before the first
   * receive error has it among its evaluated notifications.
   */
  lemma {:induction false} ProcessSends(table: map<string, seq<Rule>>, trace: seq<FeedItem>, chat: Int64, dec: DecimalText, n: Notification)
    ensures n in Process(table, trace, chat, dec) <==>
      exists t :: Reached(trace, t) && n in EvaluateMessage(table, trace[t].value, chat, dec)
    decreases |trace|
  {
    if trace == [] {
    } else if trace[0].Failure? {
      assert forall t :: !Reached(trace, t);
    } else {
      var rest := trace[1..];
      var here := EvaluateMessage(table, trace[0].value, chat, dec);
      assert Process(table, trace, chat, dec) == here + Process(table, rest, chat, dec);
      ProcessSends(table, rest, chat, dec, n);
      assert Reached(trace, 0);
      if n in Process(table, trace, chat, dec) && n !in here {
        var t :| Reached(rest, t) && n in EvaluateMessage(table, rest[t].value, chat, dec);
        ReachedTail(trace, t);
        assert Reached(trace, t + 1) && n in EvaluateMessage(table, trace[t + 1].value, chat, dec);
      }
      if t :| Reached(trace, t) && n in EvaluateMessage(table, trace[t].value, chat, dec) {
        if t > 0 {
          ReachedTail(trace, t - 1);
          assert Reached(rest, t - 1) && n in EvaluateMessage(table, rest[t - 1].value, chat, dec);
        }
      }
    }
  }

  /** Processing is sequential: an error-free prefix is handled before whatever follows. */
  lemma {:induction false} ProcessAppend(table: map<string, seq<Rule>>, first: seq<FeedItem>, rest: seq<FeedItem>, chat: Int64, dec: DecimalText)
    requires NoFailure(first)
    ensures Process(table, first + rest, chat, dec) == Process(table, first, chat, dec) + Process(table, rest, chat, dec)
    decreases |first|
  {
    if first == [] {
      assert first + rest == rest;
    } else {
      assert (first + rest)[0] == first[0];
      assert (first + rest)[1..] == first[1..] + rest;
      NoFailureTail(first);
      ProcessAppend(table, first[1..], rest, chat, dec);
    }
  }

  lemma NoFailureTail(trace: seq<FeedItem>)
    requires trace != [] && NoFailure(trace)
    ensures trace[0].Success? && NoFailure(trace[1..])
  {
    assert forall i :: 0 <= i < |trace[1..]| ==> trace[1..][i] == trace[i + 1];
  }

  /** Nothing received after the first receive error is ever evaluated. */
  lemma ProcessStopsAtError(table: map<string, seq<Rule>>, first: seq<FeedItem>, e: string, rest: seq<FeedItem>, chat: Int64, dec: DecimalText)
    requires NoFailure(first)
    ensures Process(table, first + [Failure(e)] + rest, chat, dec) == Process(table, first, chat, dec)
  {
    ProcessAppend(table, first, [Failure(e)] + rest, chat, dec);
    assert first + [Failure(e)] + rest == first + ([Failure(e)] + rest);
  }

  /** A nil message, however many times received, changes nothing. */
  lemma ProcessSkipsNil(table: map<string, seq<Rule>>, first: seq<FeedItem>, rest: seq<FeedItem>, chat: Int64, dec: DecimalText)
    requires NoFailure(first)
    ensures Process(table, first + [Success(None)] + rest, chat, dec) == Process(table, first + rest, chat, dec)
  {
    var tail: seq<FeedItem> := [Success(None)] + rest;
    assert first + [Success(None)] + rest == first + tail;
    ProcessAppend(table, first, tail, chat, dec);
    ProcessNilFirst(table, rest, chat, dec);
    ProcessAppend(table, first, rest, chat, dec);
  }

  lemma ProcessNilFirst(table: map<string, seq<Rule>>, rest: seq<FeedItem>, chat: Int64, dec: DecimalText)
    ensures Process(table, [Success(None)] + rest, chat, dec) == Process(table, rest, chat, dec)
  {
    var tail: seq<FeedItem> := [Success(None)] + rest;
    assert tail[0] == Success(None) && tail[1..] == rest;
    assert Process(table, tail, chat, dec) == [] + Process(table, rest, chat, dec);
  }

  /** How the feed connection went for a session that tried to open one. */
  datatype Feed = ConnectFailed | SubscribeFailed | Connected(trace: seq<FeedItem>)

  /** What a session did: whether it dialled, what it subscribed to, what it sent. */
  datatype SessionRun = SessionRun(dialed: bool, subscribed: set<string>, sent: seq<Notification>)

  /**
   * `runUser`: with no usable alert the session returns before connecting;
   * a connect or subscribe failure ends it silently; otherwise it subscribes
   * once to every asset of its rule table and runs the receive loop.
   */
  function RunUser(user: User, alerts: seq<Alert>, feed: Feed, dec: DecimalText): (run: SessionRun)
    ensures !run.dialed <==> forall i :: 0 <= i < |alerts| ==> dec.parse(alerts[i].threshold).None?
    ensures !run.dialed ==> run.subscribed == {} && run.sent == []
    ensures !feed.Connected? ==> run.subscribed == {} && run.sent == []
    ensures run.dialed && feed.Connected? ==>
      && run.subscribed == BuildRules(alerts, dec).Keys
      && run.sent == Process(BuildRules(alerts, dec), feed.trace, user.telegramUserId, dec)
  {
    var table := BuildRules(alerts, dec);
    NoRulesIffNoUsableAlert(alerts, dec);
    if table.Keys == {} then
      assert table == map[];
      SessionRun(false, {}, [])
    else
      match feed
      case ConnectFailed => SessionRun(true, {}, [])
      case SubscribeFailed => SessionRun(true, {}, [])
      case Connected(trace) => SessionRun(true, table.Keys, Process(table, trace, user.telegramUserId, dec))
  }

  /** The feed item of one `price_change` message with a single change for `asset`. */
  function OneChange(asset: string, bid: Decimal, ask: Decimal): FeedItem {
    Success(Some(PriceChangeMessage(PriceChangeEvent, [PriceChange(asset, Some(bid), Some(ask), None)])))
  }

  lemma ProcessOne(table: map<string, seq<Rule>>, msg: PriceChangeMessage, chat: Int64, dec: DecimalText)
    requires msg.eventType == PriceChangeEvent
    ensures Process(table, [Success(Some(msg))], chat, dec) == EvaluateChanges(table, msg.priceChanges, chat, dec)
  {
    var trace: seq<FeedItem> := [Success(Some(msg))];
    assert trace[1..] == [];
  }

  /** The table of a single alert with a parsing threshold has one rule, under that alert's asset. */
  lemma OneAlertTable(a: Alert, t: Decimal, dec: DecimalText)
    requires dec.parse(a.threshold) == Some(t)
    ensures a.assetId in BuildRules([a], dec) && BuildRules([a], dec)[a.assetId] == [ToRule(a, t)]
  {
    assert Usable([a][0], a.assetId, dec);
    assert BuildRules([a], dec)[a.assetId] == RulesFor([a], a.assetId, dec) == [ToRule(a, t)];
  }

  /** A `<= 0.23` alert fires once when the best ask drops to 0.20, whatever the bid. */
  lemma AskBelowThresholdFires(user: User, a: Alert, bid: Decimal, dec: DecimalText)
    requires a.comparator == AtMost && dec.parse(a.threshold) == Some(0.23)
    ensures RunUser(user, [a], Connected([OneChange(a.assetId, bid, 0.20)]), dec).sent
         == [Notification(user.telegramUserId, AlertText(ToRule(a, 0.23), 0.20, dec))]
  {
    var table := BuildRules([a], dec);
    OneAlertTable(a, 0.23, dec);
    var rule := ToRule(a, 0.23);
    var chat := user.telegramUserId;
    var low := PriceChange(a.assetId, Some(bid), Some(0.20), None);
    var sent := [Notification(chat, AlertText(rule, 0.20, dec))];
    assert SelectPrice(rule.comparator, low) == Some(0.20);
    assert Fire(rule, low, chat, dec) == Some(sent[0]);
    assert EvaluateRules([rule], low, chat, dec) == sent;
    assert EvaluateChanges(table, [low], chat, dec) == sent + [];
    ProcessOne(table, PriceChangeMessage(PriceChangeEvent, [low]), chat, dec);
  }

  /** The same alert stays silent while the best ask is 0.30. */
  lemma AskAboveThresholdSilent(user: User, a: Alert, dec: DecimalText)
    requires a.comparator == AtMost && dec.parse(a.threshold) == Some(0.23)
    ensures RunUser(user, [a], Connected([OneChange(a.assetId, 0.25, 0.30)]), dec).sent == []
  {
    var table := BuildRules([a], dec);
    OneAlertTable(a, 0.23, dec);
    var rule := ToRule(a, 0.23);
    var high := PriceChange(a.assetId, Some(0.25), Some(0.30), None);
    assert EvaluateRules([rule], high, user.telegramUserId, dec) == [];
    assert EvaluateChanges(table, [high], user.telegramUserId, dec) == [];
    ProcessOne(table, PriceChangeMessage(PriceChangeEvent, [high]), user.telegramUserId, dec);
  }
}

=== FILE: commands.dfy ===
/** Argument parsing of the chat commands (`internal/delivery/telegram/commands.go`). */
module Commands {
  import opened Wrappers
  import opened Text
  import opened Domain

  /** `ErrInvalidArguments`, the only error the parsers return. */
  datatype CommandError = InvalidArguments

  /** The five words of `/add_alert <event> <market> <YES|NO> <cmp> <threshold>`. */
  datatype AddAlertArgs = AddAlertArgs(
    eventSlug: string,
    marketSlug: string,
    outcome: string,
    comparator: string,
    threshold: string)

  function ArgsList(a: AddAlertArgs): seq<string> {
    [a.eventSlug, a.marketSlug, a.outcome, a.comparator, a.threshold]
  }

  /** Every argument is a non-empty word without whitespace. */
  predicate WellFormedArgs(a: AddAlertArgs) {
    forall i :: 0 <= i < 5 ==> ArgsList(a)[i] != [] && NoSpace(ArgsList(a)[i])
  }

  /** `strings.TrimSpace` applied to one word of `strings.Fields`, where it changes nothing. */
  function TrimWord(w: string): (t: string)
    requires w != [] && NoSpace(w)
    ensures t == w
  {
    TrimSpaceOfWord(w);
    TrimSpace(w)
  }

  /**
   * Succeeds exactly when the arguments split into five whitespace-separated
   * words, and then returns those words in order.
   */
  function ParseAddAlertArgs(args: string): (r: Result<AddAlertArgs, CommandError>)
    ensures r.Success? <==> |Fields(args)| == 5
    ensures r.Success? ==> ArgsList(r.value) == Fields(args) && WellFormedArgs(r.value)
  {
    var parts := Fields(args);
    if |parts| != 5 then
      Failure(InvalidArguments)
    else
      Success(AddAlertArgs(
        TrimWord(parts[0]), TrimWord(parts[1]), TrimWord(parts[2]),
        TrimWord(parts[3]), TrimWord(parts[4])))
  }

  /** Five well-formed words written with single spaces parse back to themselves. */
  lemma ParseAddAlertArgsRoundTrip(a: AddAlertArgs)
    requires WellFormedArgs(a)
    ensures ParseAddAlertArgs(JoinSpaced(ArgsList(a))) == Success(a)
  {
    FieldsOfJoin(ArgsList(a));
  }

  /**
   * Fails exactly on blank input; otherwise returns the input without its
   * surrounding whitespace.
   */
  function ParseEventSlug(args: string): (r: Result<string, CommandError>)
    ensures r.Failure? <==> AllSpace(args)
    ensures r.Success? ==> r.value != [] && Trimmed(r.value)
    ensures r.Success? ==> exists i :: SurroundedAt(r.value, args, i, IsSpace)
  {
    var slug := TrimSpace(args);
    TrimSpaceSurrounded(args);
    if slug == "" then Failure(InvalidArguments) else Success(slug)
  }

  lemma ParseEventSlugRoundTrip(left: string, slug: string, right: string)
    requires AllSpace(left) && AllSpace(right)
    requires slug != [] && Trimmed(slug)
    ensures ParseEventSlug(left + slug + right) == Success(slug)
  {
    TrimSpaceOfPadded(left, slug, right);
  }

  const MaxUint64: nat := 0xFFFF_FFFF_FFFF_FFFF

  /** The texts `strconv.ParseUint(t, 10, 64)` accepts: digits only, value below 2^64. */
  predicate IsUint64Text(t: string) {
    t != [] && AllDigits(t) && DigitsValue(t) <= MaxUint64
  }

  /**
   * The digit loop of `strconv.ParseUint` in base 10 from position `i` on,
   * with `acc` the value of the digits before `i`. Like the Go code it stops
   * at the first non-digit (syntax error) and as soon as the value would pass
   * 2^64 - 1 (range error), before looking at the rest of the text.
   */
  function ParseDigitsFrom(t: string, i: nat, acc: Uint64): (r: Result<Uint64, CommandError>)
    requires i <= |t| && AllDigits(t[..i]) && acc == DigitsValue(t[..i])
    ensures r.Success? <==> AllDigits(t) && DigitsValue(t) <= MaxUint64
    ensures r.Success? ==> r.value == DigitsValue(t)
    decreases |t| - i
  {
    if i == |t| then
      assert t[..i] == t;
      Success(acc)
    else if !IsDigit(t[i]) then
      Failure(InvalidArguments)
    else
      var next := acc * 10 + DigitValue(t[i]);
      assert t[..i + 1][..i] == t[..i];
      assert DigitsValue(t[..i + 1]) == next;
      if acc >= MaxUint64 / 10 + 1 || next > MaxUint64 then
        OverflowIsFinal(t, i + 1);
        Failure(InvalidArguments)
      else
        ParseDigitsFrom(t, i + 1, next)
  }

  lemma OverflowIsFinal(t: string, j: nat)
    requires j <= |t| && AllDigits(t[..j]) && DigitsValue(t[..j]) > MaxUint64
    ensures !(AllDigits(t) && DigitsValue(t) <= MaxUint64)
  {
    if AllDigits(t) {
      DigitsValuePrefix(t, j);
    }
  }

  /** `strconv.ParseUint(t, 10, 64)`. */
  function ParseUint64(t: string): (r: Result<Uint64, CommandError>)
    ensures r.Success? <==> IsUint64Text(t)
    ensures r.Success? ==> r.value == DigitsValue(t)
  {
    if t == [] then Failure(InvalidArguments)
    else
      assert t[..0] == [];
      ParseDigitsFrom(t, 0, 0)
  }

  /**
   * Accepts exactly the inputs whose trimmed text is a non-empty run of
   * decimal digits worth less than 2^64, and returns that value.
   */
  function ParseAlertID(args: string): (r: Result<Uint64, CommandError>)
    ensures r.Success? <==> IsUint64Text(TrimSpace(args))
    ensures r.Success? ==> r.value == DigitsValue(TrimSpace(args))
  {
    var idStr := TrimSpace(args);
    if idStr == "" then Failure(InvalidArguments)
    else
      match ParseUint64(idStr)
      case Failure(_) => Failure(InvalidArguments)
      case Success(value) => Success(value)
  }

  /** Rendering an id in decimal, with any padding, parses back to the id. */
  lemma ParseAlertIDRoundTrip(left: string, n: Uint64, right: string)
    requires AllSpace(left) && AllSpace(right)
    ensures ParseAlertID(left + NatToString(n) + right) == Success(n)
  {
    var digits := NatToString(n);
    assert !IsSpace(digits[0]) && !IsSpace(digits[|digits| - 1]);
    TrimSpaceOfPadded(left, digits, right);
  }

  /** Leading zeros are accepted. */
  lemma ParseAlertIDLeadingZeros()
    ensures ParseAlertID("007") == Success(7)
  {
    TrimSpaceOfWord("007");
    assert DigitsValue("007") == 7 by {
      assert "007"[..2] == "00";
      assert "00"[..1] == "0";
      assert "0"[..0] == "";
    }
  }

  /** A sign is not a digit, so "+7" is refused. */
  lemma ParseAlertIDRejectsSign()
    ensures ParseAlertID("+7").Failure?
  {
    TrimSpaceOfWord("+7");
    assert !IsDigit("+7"[0]);
  }
}

=== FILE: domain.dfy ===
/**
 * The entities of `internal/domain`: users, alerts, Gamma market metadata and
 * websocket price changes, plus the sentinel errors every layer passes around.
 */
module Domain {
  import opened Wrappers

  /** Go's `uint` on a 64-bit platform: database ids and alert ids. */
  type Uint64 = x: int | 0 <= x < 0x1_0000_0000_0000_0000

  /** Go's `int64`: Telegram user ids. */
  type Int64 = x: int | -0x8000_0000_0000_0000 <= x < 0x8000_0000_0000_0000

  /** `decimal.Decimal`, an exact decimal number, modelled as an exact rational. */
  type Decimal = real

  /**
   * The text side of `shopspring/decimal`, which is not part of this model:
   * `parse` is `decimal.NewFromString` (None on error) and `render` is `Decimal.String`.
   */
  datatype DecimalText = DecimalText(parse: string -> Option<Decimal>, render: Decimal -> string)

  datatype User = User(id: Uint64, telegramUserId: Int64, username: string)

  datatype Alert = Alert(
    id: Uint64,
    userId: Uint64,
    marketSlug: string,
    conditionId: string,
    outcome: string,
    assetId: string,
    comparator: string,
    threshold: string,
    enabled: bool)

  datatype MarketInfo = MarketInfo(
    slug: string,
    conditionId: string,
    outcomes: seq<string>,
    clobTokenIds: seq<string>,
    question: string,
    bestBid: Option<Decimal>,
    bestAsk: Option<Decimal>,
    lastTrade: Option<Decimal>,
    outcomePrices: seq<string>)

  datatype EventMarkets = EventMarkets(eventSlug: string, markets: seq<MarketInfo>)

  /** One asset's update in a feed message; every price is optional. */
  datatype PriceChange = PriceChange(
    assetId: string,
    bestBid: Option<Decimal>,
    bestAsk: Option<Decimal>,
    price: Option<Decimal>)

  datatype PriceChangeMessage = PriceChangeMessage(eventType: string, priceChanges: seq<PriceChange>)

  const PriceChangeEvent: string := "price_change"

  /** The two canonical comparators an alert is stored with. */
  const AtMost: string := "<="
  const AtLeast: string := ">="

  /**
   * The error values compared with `==` or `errors.Is` anywhere in the core.
   * `NotFound` and `UpstreamEventNotFound` are the repository and Gamma
   * sentinels of package `domain`; the next seven are those of package
   * `usecase`; `Other` is any further error (database, HTTP, ...).
   */
  datatype Error =
    | NotFound
    | UpstreamEventNotFound
    | UserNotRegistered
    | InvalidOutcome
    | InvalidComparator
    | InvalidThreshold
    | AlertNotFound
    | EventNotFound
    | MarketNotInEvent
    | Other(reason: string)
}

=== FILE: handlers.dfy ===
/**
 * The reply texts of `internal/delivery/telegram/handlers.go`: the message for
 * each alert error, and the budgeted event summary with one block per market.
 * Sending the reply is not part of this model.
 */
module Handlers {
  import opened Wrappers
  import opened Text
  import opened Domain

  const GenericErrorText: string := "Something went wrong. Please try again."
  const UserNotRegisteredText: string := "Please /start to register first."
  const InvalidOutcomeText: string := "Invalid outcome. Use YES or NO."
  const InvalidComparatorText: string := "Invalid comparator. Use <=, >=, <, or >."
  const InvalidThresholdText: string := "Invalid threshold. Use a decimal like 0.23."
  const AlertNotFoundText: string := "Alert not found."
  const EventNotFoundText: string := "Event not found. Ensure the slug is correct."
  const MarketNotInEventText: string := "Market not found in that event. Use /event <event_slug> to list markets."

  /** The reply texts have pairwise different lengths, so no two are equal. */
  lemma ReplyLengths()
    ensures |GenericErrorText| == 39
    ensures |UserNotRegisteredText| == 32
    ensures |InvalidOutcomeText| == 31
    ensures |InvalidComparatorText| == 40
    ensures |InvalidThresholdText| == 43
    ensures |AlertNotFoundText| == 16
    ensures |EventNotFoundText| == 44
    ensures |MarketNotInEventText| == 72
  {
  }

  /** The seven errors of package `usecase` that have their own reply. */
  predicate IsUsecaseError(e: Error) {
    e.UserNotRegistered? || e.InvalidOutcome? || e.InvalidComparator? || e.InvalidThreshold?
      || e.AlertNotFound? || e.EventNotFound? || e.MarketNotInEvent?
  }

  /**
   * `alertErrorMessage`: each use-case error has its fixed text; every other
   * error, the repository's "not found" included, gets the generic text.
   */
  function AlertErrorMessage(e: Error): (text: string)
    ensures text == GenericErrorText <==> !IsUsecaseError(e)
  {
    ReplyLengths();
    match e
    case UserNotRegistered => UserNotRegisteredText
    case InvalidOutcome => InvalidOutcomeText
    case InvalidComparator => InvalidComparatorText
    case InvalidThreshold => InvalidThresholdText
    case AlertNotFound => AlertNotFoundText
    case EventNotFound => EventNotFoundText
    case MarketNotInEvent => MarketNotInEventText
    case _ => GenericErrorText
  }

  /** The use-case error a reply text stands for, if any. */
  function ErrorOfMessage(text: string): Option<Error> {
    if text == UserNotRegisteredText then Some(UserNotRegistered)
    else if text == InvalidOutcomeText then Some(InvalidOutcome)
    else if text == InvalidComparatorText then Some(InvalidComparator)
    else if text == InvalidThresholdText then Some(InvalidThreshold)
    else if text == AlertNotFoundText then Some(AlertNotFound)
    else if text == EventNotFoundText then Some(EventNotFound)
    else if text == MarketNotInEventText then Some(MarketNotInEvent)
    else None
  }

  /**
   * The reply tells the user which check failed: each use-case error can be
   * read back from its text, and the generic text stands for none of them.
   */
  lemma AlertErrorMessageIdentifiesError(e: Error)
    ensures IsUsecaseError(e) ==> ErrorOfMessage(AlertErrorMessage(e)) == Some(e)
    ensures !IsUsecaseError(e) ==> ErrorOfMessage(AlertErrorMessage(e)) == None
  {
    ReplyLengths();
  }

  /** A price for display: its decimal text, or `N/A` when absent. */
  function ShowPrice(p: Option<Decimal>, dec: DecimalText): string {
    match p
    case None => "N/A"
    case Some(d) => dec.render(d)
  }

  /**
   * `formatPriceSummary`: with at least two outcome prices, the first two as
   * YES and NO; otherwise the best bid and ask, `N/A` for an absent one.
   */
  function FormatPriceSummary(market: MarketInfo, dec: DecimalText): (text: string)
    ensures |text| >= 11
    ensures text[..11] == "Price: YES " <==> |market.outcomePrices| >= 2
    ensures text[..11] == "Price: bid " <==> |market.outcomePrices| < 2
    ensures |market.outcomePrices| >= 2 ==> text[11..] == market.outcomePrices[0] + "$ NO " + market.outcomePrices[1] + "$"
    ensures |market.outcomePrices| < 2 ==> |text| == 16 + |ShowPrice(market.bestBid, dec)| + |ShowPrice(market.bestAsk, dec)|
    ensures |market.outcomePrices| < 2 && market.bestBid.None? ==> text[11..15] == "N/A "
    ensures |market.outcomePrices| < 2 && market.bestAsk.None? ==> text[|text| - 4..] == " N/A"
    ensures |market.outcomePrices| < 2 && market.bestBid.Some? ==> text[11..11 + |dec.render(market.bestBid.value)|] == dec.render(market.bestBid.value)
    ensures |market.outcomePrices| < 2 && market.bestAsk.Some? ==>
      text[|text| - |dec.render(market.bestAsk.value)| - 5..] == " ask " + dec.render(market.bestAsk.value)
  {
    if |market.outcomePrices| >= 2 then
      "Price: YES " + market.outcomePrices[0] + "$ NO " + market.outcomePrices[1] + "$"
    else
      var front := "Price: bid " + ShowPrice(market.bestBid, dec);
      var text := front + (" ask " + ShowPrice(market.bestAsk, dec));
      assert text[..11] == "Price: bid " && text[7] != "Price: YES "[7];
      assert text[|front|..] == " ask " + ShowPrice(market.bestAsk, dec);
      text
  }

  /**
   * Once a market lists two outcome prices, its bid, ask and any further
   * prices no longer show.
   */
  lemma PriceSummaryUsesFirstTwoPrices(market: MarketInfo, other: MarketInfo, dec: DecimalText)
    requires |market.outcomePrices| >= 2 && |other.outcomePrices| >= 2
    requires market.outcomePrices[..2] == other.outcomePrices[..2]
    ensures FormatPriceSummary(market, dec) == FormatPriceSummary(other, dec)
  {
    assert market.outcomePrices[0] == market.outcomePrices[..2][0];
    assert market.outcomePrices[1] == market.outcomePrices[..2][1];
  }

  /** With fewer than two outcome prices, whatever prices there are do not show. */
  lemma PriceSummaryFallsBackToQuotes(market: MarketInfo, prices: seq<string>, dec: DecimalText)
    requires |market.outcomePrices| < 2 && |prices| < 2
    ensures FormatPriceSummary(market, dec) == FormatPriceSummary(market.(outcomePrices := prices), dec)
    ensures market.bestBid.None? && market.bestAsk.None? ==> FormatPriceSummary(market, dec) == "Price: bid N/A ask N/A"
  {
  }

  const MaxQuestionLen: nat := 80

  /**
   * A question longer than 80 bytes is cut to its first 77 bytes followed by
   * `...`, which is exactly 80 bytes; a shorter one is kept as it is.
   */
  function ShortenQuestion(q: string): (r: string)
    ensures |r| <= MaxQuestionLen
    ensures |q| <= MaxQuestionLen ==> r == q
    ensures |q| > MaxQuestionLen ==> |r| == MaxQuestionLen && r[..77] == q[..77] && r[77..] == "..."
    ensures forall i :: 0 <= i < |r| ==> r[i] == q[i] || r[i] == '.'
    ensures OneLine(q) ==> OneLine(r)
  {
    if |q| > MaxQuestionLen then q[..77] + "..." else q
  }

  /**
   * The question line of a block: the trimmed question with its newlines
   * turned into spaces, cut to 77 bytes and `...` when longer than 80 bytes;
   * empty when the question is blank.
   */
  function QuestionLine(question: string): (q: string)
    ensures |q| <= MaxQuestionLen
    ensures q == [] <==> AllSpace(question)
    ensures OneLine(q)
    ensures !AllSpace(question) && |TrimSpace(question)| <= MaxQuestionLen ==> q == NewlinesToSpaces(TrimSpace(question))
    ensures |TrimSpace(question)| > MaxQuestionLen ==> q == NewlinesToSpaces(TrimSpace(question))[..77] + "..."
  {
    var trimmed := TrimSpace(question);
    if trimmed == "" then ""
    else
      var oneLine := NewlinesToSpaces(trimmed);
      var q := ShortenQuestion(oneLine);
      assert q != [] by {
        assert |oneLine| > 0;
      }
      q
  }

  /**
   * A block's text: the numbered slug line, then `middle`, then the price
   * summary and a blank line.
   */
  function BlockText(index: nat, slug: string, middle: string, summary: string): (block: string)
    ensures |block| == |NatToString(index)| + |slug| + |middle| + |summary| + 5
    ensures block[|block| - 2..] == "\n\n"
  {
    NatToString(index) + ") " + slug + "\n" + middle + summary + "\n\n"
  }

  /**
   * `formatMarketBlock`: the numbered slug, the question line when the
   * question is not blank, and the price summary, ending with a blank line.
   */
  function FormatMarketBlock(index: nat, market: MarketInfo, dec: DecimalText): (block: string)
    ensures |block| >= 2 && block[|block| - 2..] == "\n\n"
  {
    var summary := FormatPriceSummary(market, dec);
    var question := QuestionLine(market.question);
    if question != "" then BlockText(index, market.slug, question + "\n", summary)
    else BlockText(index, market.slug, "", summary)
  }

  /**
   * A block shows the question line exactly when the question is not blank,
   * between the numbered slug and the price summary.
   */
  lemma MarketBlockLayout(index: nat, market: MarketInfo, dec: DecimalText)
    ensures FormatMarketBlock(index, market, dec)
         == BlockText(index, market.slug,
                      if AllSpace(market.question) then "" else QuestionLine(market.question) + "\n",
                      FormatPriceSummary(market, dec))
  {
  }

  /** The question line never carries more than 80 bytes of the question, however long it is. */
  lemma MarketBlockBounded(index: nat, market: MarketInfo, dec: DecimalText)
    ensures |FormatMarketBlock(index, market, dec)|
         <= |NatToString(index)| + |market.slug| + MaxQuestionLen + |FormatPriceSummary(market, dec)| + 6
  {
  }

  const MaxMessageLen: nat := 3800
  const NoMarketsText: string := "(no markets)"

  function SummaryHeader(slug: string): string {
    "Event: " + slug + "\nMarkets:\n"
  }

  /** `f` applied to every element and its position counted from 1. */
  function Numbered<T>(xs: seq<T>, f: (nat, T) -> string): (ys: seq<string>)
    ensures |ys| == |xs|
    ensures forall i :: 0 <= i < |xs| ==> ys[i] == f(i + 1, xs[i])
  {
    seq(|xs|, i requires 0 <= i < |xs| => f(i + 1, xs[i]))
  }

  /**
   * The markets' blocks: block `k` is market `k`'s, numbered `k + 1`. Every
   * block ends with a blank line, so none is shorter than two bytes.
   */
  function Blocks(markets: seq<MarketInfo>, dec: DecimalText): (blocks: seq<string>)
    ensures |blocks| == |markets|
    ensures forall k :: 0 <= k < |markets| ==> blocks[k] == FormatMarketBlock(k + 1, markets[k], dec)
    ensures forall k :: 0 <= k < |blocks| ==> |blocks[k]| >= 2
  {
    var format := (i: nat, m: MarketInfo) => FormatMarketBlock(i, m, dec);
    NumberedBlocks(markets, dec, format);
    Numbered(markets, format)
  }

  lemma NumberedBlocks(markets: seq<MarketInfo>, dec: DecimalText, format: (nat, MarketInfo) -> string)
    requires forall i: nat, m :: format(i, m) == FormatMarketBlock(i, m, dec)
    ensures forall k :: 0 <= k < |markets| ==> Numbered(markets, format)[k] == FormatMarketBlock(k + 1, markets[k], dec)
  {
  }

  function Concat(blocks: seq<string>): string {
    if blocks == [] then [] else Concat(blocks[..|blocks| - 1]) + blocks[|blocks| - 1]
  }

  /** The note on how many markets were left out, or nothing. */
  function MoreSuffix(remaining: nat): string {
    if remaining > 0 then "...and " + NatToString(remaining) + " more markets" else ""
  }

  /** The first `j` blocks fit in the budget after the header. */
  predicate Fits(header: string, blocks: seq<string>, j: nat)
    requires j <= |blocks|
  {
    |header| + |Concat(blocks[..j])| <= MaxMessageLen
  }

  lemma ConcatSnoc(blocks: seq<string>, i: nat)
    requires i < |blocks|
    ensures Concat(blocks[..i + 1]) == Concat(blocks[..i]) + blocks[i]
  {
    assert blocks[..i + 1][..i] == blocks[..i];
  }

  /** The text before the suffix: the header and the first `i` blocks. */
  function Written(header: string, blocks: seq<string>, i: nat): string
    requires i <= |blocks|
  {
    header + Concat(blocks[..i])
  }

  /**
   * Appending stopped after `included` blocks: each of them fitted the budget
   * and the next one, if any, did not.
   */
  predicate StopsAt(header: string, blocks: seq<string>, included: nat) {
    && included <= |blocks|
    && (forall j :: 0 < j <= included ==> Fits(header, blocks, j))
    && (included < |blocks| ==> !Fits(header, blocks, included + 1))
  }

  /**
   * The loop of `formatEventSummary` over the markets' blocks: appends them
   * in order while the next one keeps the text within 3800 bytes, and
   * reports how many were left out when one does not fit.
   */
  method AppendBlocks(header: string, blocks: seq<string>)
    returns (text: string, remaining: nat, included: nat)
    ensures StopsAt(header, blocks, included)
    ensures text == Written(header, blocks, included)
    ensures remaining == |blocks| - included
    ensures |text| <= if |header| > MaxMessageLen then |header| else MaxMessageLen
  {
    text := header;
    remaining := 0;
    var i := 0;
    while i < |blocks|
      invariant 0 <= i <= |blocks|
      invariant text == Written(header, blocks, i)
      invariant forall j :: 0 < j <= i ==> Fits(header, blocks, j)
      invariant |text| <= if |header| > MaxMessageLen then |header| else MaxMessageLen
    {
      ConcatSnoc(blocks, i);
      if |text| + |blocks[i]| > MaxMessageLen {
        remaining := |blocks| - i;
        break;
      }
      text := text + blocks[i];
      i := i + 1;
    }
    included := i;
  }

  /** The header names the event's own slug, or the requested one when the event has none. */
  function HeaderSlug(requestedSlug: string, event: EventMarkets): (slug: string)
    ensures slug == event.eventSlug || slug == requestedSlug
    ensures event.eventSlug != [] ==> slug == event.eventSlug
    ensures slug == [] <==> event.eventSlug == [] && requestedSlug == []
  {
    if event.eventSlug == "" then requestedSlug else event.eventSlug
  }

  /**
   * `text` is the summary of `blocks` under `header` with the first
   * `included` blocks written: those blocks each fitted the budget, the next
   * one (if any) did not, the rest are counted in the closing note, and
   * `(no markets)` follows exactly when there are no blocks.
   */
  predicate IsSummary(header: string, blocks: seq<string>, included: nat, text: string) {
    && StopsAt(header, blocks, included)
    && text == Written(header, blocks, included) + MoreSuffix(|blocks| - included)
               + (if blocks == [] then NoMarketsText else "")
  }

  /**
   * `formatEventSummary`. The header names the event's slug, or the requested
   * one when the event has none; the markets' blocks follow in order for as
   * long as each keeps the text within 3800 bytes, and the first that would
   * not fit ends the list, the text then saying how many markets were left
   * out. `included` is the number of blocks written.
   */
  method FormatEventSummary(requestedSlug: string, event: EventMarkets, dec: DecimalText)
    returns (text: string, included: nat)
    ensures IsSummary(SummaryHeader(HeaderSlug(requestedSlug, event)), Blocks(event.markets, dec), included, text)
    ensures var header := SummaryHeader(HeaderSlug(requestedSlug, event));
      |Written(header, Blocks(event.markets, dec), included)| <= if |header| > MaxMessageLen then |header| else MaxMessageLen
  {
    var slug := event.eventSlug;
    if slug == "" {
      slug := requestedSlug;
    }
    text, included := Summarise(SummaryHeader(slug), Blocks(event.markets, dec));
  }

  /** The body of `formatEventSummary` once the header and the blocks are known. */
  method Summarise(header: string, blocks: seq<string>) returns (text: string, included: nat)
    requires forall k :: 0 <= k < |blocks| ==> |blocks[k]| >= 2
    ensures IsSummary(header, blocks, included, text)
    ensures |Written(header, blocks, included)| <= if |header| > MaxMessageLen then |header| else MaxMessageLen
  {
    var written, remaining, n := AppendBlocks(header, blocks);
    included := n;
    text := CloseSummary(header, blocks, included, written, remaining);
  }

  /** The loop's result, closed by `CloseSummary`, is the summary of the blocks. */
  lemma SummaryOfClosed(header: string, blocks: seq<string>, included: nat, written: string, remaining: nat, text: string)
    requires forall k :: 0 <= k < |blocks| ==> |blocks[k]| >= 2
    requires StopsAt(header, blocks, included)
    requires written == Written(header, blocks, included) && remaining == |blocks| - included
    requires var noted := written + MoreSuffix(remaining);
      text == noted + (if |noted| == |header| then NoMarketsText else "")
    ensures IsSummary(header, blocks, included, text)
  {
    EndOfList(header, blocks, written, included, remaining);
    var noted := written + MoreSuffix(remaining);
    assert noted == Written(header, blocks, included) + MoreSuffix(|blocks| - included);
    assert (if |noted| == |header| then NoMarketsText else "") == (if blocks == [] then NoMarketsText else "");
  }

  /**
   * The end of `formatEventSummary`: the note on markets left out, then
   * `(no markets)` when nothing follows the header. Given what the loop left
   * behind, the result is the summary of the blocks, so `(no markets)` is
   * added exactly when there are none.
   */
  method CloseSummary(header: string, blocks: seq<string>, included: nat, written: string, remaining: nat)
    returns (text: string)
    requires forall k :: 0 <= k < |blocks| ==> |blocks[k]| >= 2
    requires StopsAt(header, blocks, included)
    requires written == Written(header, blocks, included) && remaining == |blocks| - included
    ensures IsSummary(header, blocks, included, text)
  {
    text := written;
    if remaining > 0 {
      text := text + MoreSuffix(remaining);
    } else {
      assert text == written + MoreSuffix(remaining);
    }
    EndOfList(header, blocks, written, included, remaining);
    if |text| == |header| {
      text := text + NoMarketsText;
    }
  }

  /**
   * After the loop of `formatEventSummary`, and the note on markets left
   * out, the text is still just the header exactly when there are no markets.
   */
  lemma EndOfList(header: string, blocks: seq<string>, text: string, i: nat, remaining: nat)
    requires i <= |blocks| && text == Written(header, blocks, i)
    requires remaining == |blocks| - i
    requires forall k :: 0 <= k < |blocks| ==> |blocks[k]| >= 2
    ensures |text + MoreSuffix(remaining)| == |header| <==> blocks == []
  {
  }
}

=== FILE: logger.dfy ===
/** Log-level selection of `internal/infra/log`. */
module Logger {
  import opened Text

  /** The zap levels the configuration can select. */
  datatype Level = Debug | Info | Warn | Error

  /** The level names `ParseLevel` recognises, after trimming and lower-casing. */
  predicate IsLevelName(key: string) {
    key == "debug" || key == "warn" || key == "warning" || key == "error"
  }

  /** The level a trimmed, lower-cased key selects. */
  function LevelOfKey(key: string): (l: Level)
    ensures l == Debug <==> key == "debug"
    ensures l == Warn <==> key == "warn" || key == "warning"
    ensures l == Error <==> key == "error"
    ensures l == Info <==> !IsLevelName(key)
  {
    match key
    case "debug" => Debug
    case "warn" => Warn
    case "warning" => Warn
    case "error" => Error
    case _ => Info
  }

  /**
   * Total: every configuration string selects some level; unrecognised text,
   * including the empty string and "info", selects Info.
   */
  function ParseLevel(level: string): (l: Level)
    ensures var key := ToLower(TrimSpace(level));
      && (l == Debug <==> key == "debug")
      && (l == Warn <==> key == "warn" || key == "warning")
      && (l == Error <==> key == "error")
      && (l == Info <==> !IsLevelName(key))
  {
    LevelOfKey(ToLower(TrimSpace(level)))
  }

  /**
   * Surrounding whitespace and letter case never change the selected level:
   * any spelling of a name that lower-cases to the same key selects the same level.
   */
  lemma ParseLevelIgnoresPaddingAndCase(left: string, spelled: string, right: string, name: string)
    requires AllSpace(left) && AllSpace(right)
    requires Trimmed(spelled) && Trimmed(name)
    requires ToLower(spelled) == ToLower(name)
    ensures ParseLevel(left + spelled + right) == ParseLevel(name)
  {
    TrimSpaceOfPadded(left, spelled, right);
    TrimSpaceOfTrimmed(name);
    assert ToLower(TrimSpace(left + spelled + right)) == ToLower(TrimSpace(name));
  }

  /** The upper-case spelling of a level name, padded, selects the same level. */
  lemma ParseLevelUpperCase(left: string, name: string, right: string)
    requires AllSpace(left) && AllSpace(right) && Trimmed(name)
    ensures ParseLevel(left + ToUpper(name) + right) == ParseLevel(name)
  {
    LowerOfUpper(name);
    UpperKeepsTrimmed(name);
    ParseLevelIgnoresPaddingAndCase(left, ToUpper(name), right, name);
  }
}

=== FILE: polymarket_models.dfy ===
/**
 * The custom JSON decoders of `internal/infra/polymarket/models.go`:
 * `NullableDecimal` (an optional decimal that may arrive quoted) and
 * `StringList` (a string array that Gamma sometimes sends stringified).
 *
 * `encoding/json` itself is not part of this model: the few calls into it are
 * the abstract functions of `Json`. A decoder's pointer receiver becomes an
 * explicit previous value `prev` and a `Step` holding the new value and the
 * returned error.
 */
module PolymarketModels {
  import opened Wrappers
  import opened Text
  import opened Domain

  datatype NullableDecimal = NullableDecimal(decimal: Decimal, valid: bool)

  /** A `[]string` that remembers whether it is nil. */
  datatype StringList = NilList | Items(items: seq<string>)

  datatype DecodeError =
    | BadDecimal(text: string)          // error of decimal.NewFromString
    | BadJson(data: string)             // error of json.Unmarshal
    | UnexpectedListFormat(text: string)

  /** The receiver's value after an `UnmarshalJSON` call, and the error it returned. */
  datatype Step<T> = Step(value: T, err: Outcome<DecodeError>)

  /**
   * The `encoding/json` calls of the decoders: unmarshalling into a `string`,
   * into a `[]string` (JSON `null` gives `NilList`), and marshalling a `string`.
   */
  datatype Json = Json(
    decodeString: string -> Option<string>,
    decodeStringArray: string -> Option<StringList>,
    encodeString: string -> string)

  predicate IsQuote(c: char) {
    c == '"'
  }

  /** Strips every surrounding `"` when the text both starts and ends with one. */
  function Unquote(t: string): (u: string)
    ensures |u| <= |t|
    ensures t != [] && IsQuote(t[0]) && IsQuote(t[|t| - 1]) ==>
      TrimmedBy(u, IsQuote) && exists i :: SurroundedAt(u, t, i, IsQuote)
    ensures !(t != [] && IsQuote(t[0]) && IsQuote(t[|t| - 1])) ==> u == t
  {
    if t != [] && t[0] == '"' && t[|t| - 1] == '"' then
      TrimBySurrounded(t, IsQuote);
      TrimBy(t, IsQuote)
    else t
  }

  /**
   * The text `NullableDecimal.UnmarshalJSON` hands to the decimal parser, or
   * None when the input means "absent": exactly `null` or blank.
   */
  function DecimalPayload(data: string): (p: Option<string>)
    ensures p.None? <==> data == "null" || AllSpace(data)
  {
    if data == "null" then None
    else
      var trimmed := TrimSpace(data);
      if |trimmed| == 0 then None else Some(Unquote(trimmed))
  }

  /**
   * `NullableDecimal.UnmarshalJSON`. The literal `null` and blank input mean
   * absent; otherwise the trimmed, unquoted text is parsed. A parse failure
   * clears `valid` and returns the error; the decimal field is only written on
   * success.
   */
  function UnmarshalNullableDecimal(prev: NullableDecimal, data: string, dec: DecimalText): (r: Step<NullableDecimal>)
    ensures data == "null" || AllSpace(data) ==> r == Step(prev.(valid := false), Pass)
    ensures r.value.valid <==> DecimalPayload(data).Some? && dec.parse(DecimalPayload(data).value).Some?
    ensures r.value.valid ==> Some(r.value.decimal) == dec.parse(DecimalPayload(data).value)
    ensures !r.value.valid ==> r.value.decimal == prev.decimal
    ensures r.err.Fail? <==> DecimalPayload(data).Some? && !r.value.valid
  {
    match DecimalPayload(data)
    case None => Step(prev.(valid := false), Pass)
    case Some(text) =>
      match dec.parse(text)
      case None => Step(prev.(valid := false), Fail(BadDecimal(text)))
      case Some(d) => Step(NullableDecimal(d, true), Pass)
  }

  /** `NullableDecimal.MarshalJSON`: `null` when absent, else the decimal's text as a JSON string. */
  function MarshalNullableDecimal(n: NullableDecimal, dec: DecimalText, json: Json): (data: string)
    ensures !n.valid ==> data == "null"
    ensures !n.valid ==> UnmarshalNullableDecimal(n, data, dec) == Step(n, Pass)
    ensures n.valid && TextRoundTrips(n.decimal, dec, json) ==> UnmarshalNullableDecimal(n, data, dec) == Step(n, Pass)
  {
    if !n.valid then "null"
    else
      var text := dec.render(n.decimal);
      assert TextRoundTrips(n.decimal, dec, json) ==> DecimalPayload(json.encodeString(text)) == Some(text) by {
        if TextRoundTrips(n.decimal, dec, json) {
          PayloadOfQuoted(text);
        }
      }
      json.encodeString(text)
  }

  /**
   * What the round trip needs of the two libraries for one value: its decimal
   * text is emitted verbatim between quotes (true of digits, `-` and `.`), does
   * not itself start or end with a quote, and parses back to the value.
   */
  predicate TextRoundTrips(d: Decimal, dec: DecimalText, json: Json) {
    var t := dec.render(d);
    && json.encodeString(t) == "\"" + t + "\""
    && TrimmedBy(t, IsQuote)
    && dec.parse(t) == Some(d)
  }

  lemma UnquoteOfQuoted(t: string)
    requires TrimmedBy(t, IsQuote)
    ensures Unquote("\"" + t + "\"") == t
  {
    var q := "\"" + t + "\"";
    if t == [] {
      assert q == "\"\"" + [];
      TrimLeftOfPadding("\"\"", [], IsQuote);
    } else {
      assert q == "\"" + (t + "\"");
      assert (t + "\"")[0] == t[0];
      TrimLeftOfPadding("\"", t + "\"", IsQuote);
      TrimRightOfPadding(t, "\"", IsQuote);
    }
  }

  /** A quoted text is its own trimmed form: its ends are quotes, not whitespace. */
  lemma TrimSpaceOfQuoted(t: string)
    ensures TrimSpace("\"" + t + "\"") == "\"" + t + "\""
  {
    TrimSpaceOfTrimmed("\"" + t + "\"");
  }

  /**
   * Decoding what `MarshalJSON` wrote gives back an absent value as absent,
   * and a present value as present with the same decimal, without error.
   */
  lemma NullableDecimalRoundTrip(n: NullableDecimal, prev: NullableDecimal, dec: DecimalText, json: Json)
    requires n.valid ==> TextRoundTrips(n.decimal, dec, json)
    ensures var r := UnmarshalNullableDecimal(prev, MarshalNullableDecimal(n, dec, json), dec);
      && r.err == Pass
      && r.value.valid == n.valid
      && (n.valid ==> r.value.decimal == n.decimal)
  {
    if n.valid {
      PayloadOfQuoted(dec.render(n.decimal));
    }
  }

  /** A decimal sent as a JSON string decodes like the same decimal sent bare. */
  lemma QuotedDecimalMatchesBare(prev: NullableDecimal, t: string, dec: DecimalText)
    requires t != [] && t != "null" && Trimmed(t) && TrimmedBy(t, IsQuote)
    ensures UnmarshalNullableDecimal(prev, "\"" + t + "\"", dec).value
         == UnmarshalNullableDecimal(prev, t, dec).value
  {
    PayloadOfQuoted(t);
    PayloadOfBare(t);
  }

  lemma PayloadOfQuoted(t: string)
    requires TrimmedBy(t, IsQuote)
    ensures DecimalPayload("\"" + t + "\"") == Some(t)
  {
    var q := "\"" + t + "\"";
    TrimSpaceOfQuoted(t);
    UnquoteOfQuoted(t);
    assert q[0] == '"';
  }

  lemma PayloadOfBare(t: string)
    requires t != [] && t != "null" && Trimmed(t) && TrimmedBy(t, IsQuote)
    ensures DecimalPayload(t) == Some(t)
  {
    TrimSpaceOfTrimmed(t);
  }

  /** The first non-blank character decides the shape of a `StringList` payload. */
  function ListShape(data: string): (c: Option<char>)
    ensures c.Some? <==> !AllSpace(data)
    ensures c.Some? ==> exists i :: 0 <= i < |data| && AllSpace(data[..i]) && data[i] == c.value
    ensures c.Some? ==> !IsSpace(c.value)
  {
    var trimmed := TrimSpace(data);
    if trimmed == "" then None
    else
      FirstNonSpace(data);
      Some(trimmed[0])
  }

  /** The first byte of the trimmed text is the first non-whitespace byte of the input. */
  lemma FirstNonSpace(data: string)
    requires TrimSpace(data) != []
    ensures exists i :: 0 <= i < |data| && AllSpace(data[..i]) && data[i] == TrimSpace(data)[0]
  {
    TrimSpaceSurrounded(data);
    var i :| SurroundedAt(TrimSpace(data), data, i, IsSpace);
    assert data[i] == TrimSpace(data)[0];
    assert AllSpace(data[..i]) by {
      forall j | 0 <= j < i ensures IsSpace(data[..i][j]) {
        assert data[..i][j] == data[j];
      }
    }
  }

  /**
   * `StringList.UnmarshalJSON`. `null` and blank input give a nil list. A JSON
   * string is unwrapped and trimmed: empty contents give nil, contents that
   * are themselves a JSON string array give that array, anything else a
   * one-element list. A JSON array gives its elements. Any other shape is an
   * error. On every error the receiver keeps its previous value.
   */
  function UnmarshalStringList(prev: StringList, data: string, json: Json): (r: Step<StringList>)
    ensures data == "null" || AllSpace(data) ==> r == Step(NilList, Pass)
    ensures r.err.Fail? ==> r.value == prev
    ensures data != "null" && ListShape(data) == Some('[') ==>
      (match json.decodeStringArray(data)
       case Some(v) => r == Step(v, Pass)
       case None => r.err.Fail?)
    ensures data != "null" && ListShape(data).Some? && ListShape(data).value !in {'"', '['} ==>
      r.err.Fail?
    ensures data != "null" && ListShape(data) == Some('"') ==>
      (json.decodeString(data).None? <==> r.err.Fail?)
  {
    if data == "null" then
      Step(NilList, Pass)
    else
      var trimmed := TrimSpace(data);
      if trimmed == "" then
        Step(NilList, Pass)
      else if trimmed[0] == '"' then
        match json.decodeString(data)
        case None => Step(prev, Fail(BadJson(data)))
        case Some(raw) =>
          var inner := TrimSpace(raw);
          if inner == "" then
            Step(NilList, Pass)
          else
            match json.decodeStringArray(inner)
            case Some(values) => Step(values, Pass)
            case None => Step(Items([inner]), Pass)
      else if trimmed[0] == '[' then
        match json.decodeStringArray(data)
        case None => Step(prev, Fail(BadJson(data)))
        case Some(values) => Step(values, Pass)
      else
        Step(prev, Fail(UnexpectedListFormat(trimmed)))
  }

  /**
   * The contents of a JSON string payload: nil when blank, else the array it
   * encodes, else the trimmed text as the only element.
   */
  lemma StringifiedContents(prev: StringList, data: string, raw: string, json: Json)
    requires data != "null" && ListShape(data) == Some('"')
    requires json.decodeString(data) == Some(raw)
    ensures var r := UnmarshalStringList(prev, data, json);
      && r.err == Pass
      && (AllSpace(raw) ==> r.value == NilList)
      && (!AllSpace(raw) && json.decodeStringArray(TrimSpace(raw)).Some? ==>
            r.value == json.decodeStringArray(TrimSpace(raw)).value)
      && (!AllSpace(raw) && json.decodeStringArray(TrimSpace(raw)).None? ==>
            r.value == Items([TrimSpace(raw)]))
  {
  }

  /**
   * Gamma's stringified form of an array decodes to the same list as the
   * array itself.
   */
  lemma StringifiedArrayMatchesArray(prev: StringList, quoted: string, arr: string, json: Json)
    requires quoted != "null" && ListShape(quoted) == Some('"')
    requires json.decodeString(quoted) == Some(arr)
    requires arr != [] && Trimmed(arr) && arr[0] == '['
    requires json.decodeStringArray(arr).Some?
    ensures UnmarshalStringList(prev, quoted, json) == UnmarshalStringList(prev, arr, json)
    ensures UnmarshalStringList(prev, quoted, json) == Step(json.decodeStringArray(arr).value, Pass)
  {
    TrimSpaceOfTrimmed(arr);
    assert arr != "null" by {
      assert arr[0] != "null"[0];
    }
    assert ListShape(arr) == Some('[');
  }
}

=== FILE: registry.dfy ===
/**
 * The runner registry of `AlertingManager` (`internal/usecase/alerting_usecase.go`):
 * which Telegram users have a running alert session, and the snapshot of
 * enabled alerts each session was started with.
 *
 * A registry entry is modelled by what its session runs on (the user and the
 * alert snapshot); the cancel function, the done channel, the mutex, the
 * goroutine and the five-second stop timeout are not part of this model.
 * The repositories are a `Store` of lookup results.
 */
module Registry {
  import opened Wrappers
  import opened Domain
  import Alerting

  /** What one session runs on. */
  datatype Runner = Runner(user: User, alerts: seq<Alert>)

  /** `runners`, keyed by Telegram user id. */
  type Table = map<Int64, Runner>

  /** The repository calls the manager makes, as their results. */
  datatype Store = Store(
    userIdsWithEnabledAlerts: Result<seq<Uint64>, Error>,
    userById: Uint64 -> Result<User, Error>,
    userByTelegramId: Int64 -> Result<User, Error>,
    enabledAlerts: Uint64 -> Result<seq<Alert>, Error>)

  /** Every entry is filed under its own user's Telegram id and runs a non-empty snapshot. */
  predicate Valid(t: Table) {
    forall k :: k in t ==> t[k].user.telegramUserId == k && t[k].alerts != []
  }

  /** `r` agrees with `t` on every key but `id`. */
  predicate AgreeExcept(t: Table, r: Table, id: Int64) {
    && r.Keys - {id} == t.Keys - {id}
    && forall k :: k in t && k != id ==> k in r && r[k] == t[k]
  }

  /** `startUser` gets as far as registering a session for this user. */
  predicate Launches(store: Store, user: User) {
    store.enabledAlerts(user.id).Success? && store.enabledAlerts(user.id).value != []
  }

  function LaunchedRunner(store: Store, user: User): Runner
    requires Launches(store, user)
  {
    Runner(user, store.enabledAlerts(user.id).value)
  }

  /**
   * `StopUser`: removes the user's entry when there is one; every other entry
   * is untouched, and stopping an absent user changes nothing.
   */
  function StopUser(t: Table, id: Int64): (r: Table)
    ensures id !in r
    ensures AgreeExcept(t, r, id)
    ensures id !in t ==> r == t
    ensures Valid(t) ==> Valid(r)
  {
    if id in t then t - {id} else t
  }

  /**
   * `startUser`: a failed alert lookup or an empty list registers nothing and
   * leaves any existing session alone; otherwise the user's entry, whether
   * new or replacing a running one, becomes a session over the fresh list.
   */
  function StartUser(t: Table, store: Store, user: User): (r: Table)
    ensures AgreeExcept(t, r, user.telegramUserId)
    ensures !Launches(store, user) ==> r == t
    ensures Launches(store, user) ==> user.telegramUserId in r && r[user.telegramUserId] == LaunchedRunner(store, user)
    ensures Valid(t) ==> Valid(r)
  {
    match store.enabledAlerts(user.id)
    case Failure(_) => t
    case Success(alerts) =>
      if |alerts| == 0 then t
      else t[user.telegramUserId := Runner(user, alerts)]
  }

  /**
   * `RestartUser`: stop, look the user up again, start. A user that is not
   * found, or whose enabled list is empty or fails to load, ends up with no
   * entry; otherwise the entry runs the current enabled list.
   */
  function RestartUser(t: Table, store: Store, id: Int64): (r: Table)
    ensures Valid(t) ==> Valid(r)
    ensures store.userByTelegramId(id).Failure? ==> id !in r && AgreeExcept(t, r, id)
    ensures store.userByTelegramId(id).Success? && !Launches(store, store.userByTelegramId(id).value) ==>
      id !in r && AgreeExcept(t, r, id)
    ensures var found := store.userByTelegramId(id);
      found.Success? && found.value.telegramUserId == id && Launches(store, found.value) ==>
        id in r && r[id] == LaunchedRunner(store, found.value) && AgreeExcept(t, r, id)
  {
    var stopped := StopUser(t, id);
    match store.userByTelegramId(id)
    case Failure(_) => stopped
    case Success(user) => StartUser(stopped, store, user)
  }

  /** Restarting twice against the same store is the same as restarting once. */
  lemma RestartUserIdempotent(t: Table, store: Store, id: Int64)
    ensures RestartUser(RestartUser(t, store, id), store, id) == RestartUser(t, store, id)
  {
    var stopped := StopUser(t, id);
    var once := RestartUser(t, store, id);
    match store.userByTelegramId(id)
    case Failure(_) =>
    case Success(user) =>
      if Launches(store, user) && user.telegramUserId == id {
        assert once - {id} == stopped;
      }
  }

  /** `StartAll`'s lookup of one listed user id succeeds and registers a session under `k`. */
  predicate StartsAt(store: Store, uid: Uint64, k: Int64) {
    && store.userById(uid).Success?
    && store.userById(uid).value.telegramUserId == k
    && Launches(store, store.userById(uid).value)
  }

  /** One iteration of `StartAll`: a user that fails to load is skipped. */
  function StartOne(t: Table, store: Store, uid: Uint64): (r: Table)
    ensures forall k :: k in r <==> k in t || StartsAt(store, uid, k)
    ensures forall k :: k in t && !StartsAt(store, uid, k) ==> r[k] == t[k]
    ensures forall k :: StartsAt(store, uid, k) ==> r[k] == LaunchedRunner(store, store.userById(uid).value)
    ensures Valid(t) ==> Valid(r)
  {
    match store.userById(uid)
    case Failure(_) => t
    case Success(user) => StartUser(t, store, user)
  }

  /** Some listed id registers a session under `k`. */
  predicate StartedBy(store: Store, ids: seq<Uint64>, k: Int64) {
    exists i :: 0 <= i < |ids| && StartsAt(store, ids[i], k)
  }

  /** Listed id `i` starts a session under `k`, and no later listed id does. */
  predicate LastStarterAt(store: Store, ids: seq<Uint64>, k: Int64, i: int) {
    && 0 <= i < |ids|
    && StartsAt(store, ids[i], k)
    && forall j :: i < j < |ids| ==> !StartsAt(store, ids[j], k)
  }

  /**
   * The loop of `StartAll` over the listed user ids, in order. A key ends up
   * registered exactly when it was registered before or some listed user
   * starts under it; keys no listed user starts under are untouched; and a
   * started key runs the session of the last listed user that starts there.
   */
  function StartEach(t: Table, store: Store, ids: seq<Uint64>): (r: Table)
    ensures forall k :: k in r <==> k in t || StartedBy(store, ids, k)
    ensures forall k :: k in t && !StartedBy(store, ids, k) ==> r[k] == t[k]
    ensures forall k, i :: LastStarterAt(store, ids, k, i) ==>
      k in r && r[k] == LaunchedRunner(store, store.userById(ids[i]).value)
    ensures Valid(t) ==> Valid(r)
    decreases |ids|
  {
    if ids == [] then t
    else
      var next := StartOne(t, store, ids[0]);
      var r := StartEach(next, store, ids[1..]);
      assert forall i :: 1 <= i < |ids| ==> ids[i] == ids[1..][i - 1];
      forall k ensures StartedBy(store, ids, k) <==> StartsAt(store, ids[0], k) || StartedBy(store, ids[1..], k) {
        if StartedBy(store, ids[1..], k) {
          var i :| 0 <= i < |ids[1..]| && StartsAt(store, ids[1..][i], k);
          assert StartsAt(store, ids[i + 1], k);
        }
        if StartsAt(store, ids[0], k) {
          assert StartsAt(store, ids[0], k) && 0 < |ids|;
        }
      }
      forall k, i | LastStarterAt(store, ids, k, i)
        ensures k in r && r[k] == LaunchedRunner(store, store.userById(ids[i]).value)
      {
        if i > 0 {
          assert LastStarterAt(store, ids[1..], k, i - 1);
        } else {
          assert !StartedBy(store, ids[1..], k);
        }
      }
      r
  }

  lemma {:induction false} StartEachAppend(t: Table, store: Store, first: seq<Uint64>, rest: seq<Uint64>)
    ensures StartEach(t, store, first + rest) == StartEach(StartEach(t, store, first), store, rest)
    decreases |first|
  {
    if first == [] {
      assert first + rest == rest;
    } else {
      assert (first + rest)[0] == first[0];
      assert (first + rest)[1..] == first[1..] + rest;
      StartEachAppend(StartOne(t, store, first[0]), store, first[1..], rest);
    }
  }

  /** A listed user that fails to load is skipped without affecting anyone else. */
  lemma StartEachSkipsMissingUser(t: Table, store: Store, ids: seq<Uint64>, i: nat)
    requires i < |ids| && store.userById(ids[i]).Failure?
    ensures StartEach(t, store, ids) == StartEach(t, store, ids[..i] + ids[i + 1..])
  {
    assert ids == ids[..i] + ([ids[i]] + ids[i + 1..]);
    StartEachAppend(t, store, ids[..i], [ids[i]] + ids[i + 1..]);
    var mid := StartEach(t, store, ids[..i]);
    assert ([ids[i]] + ids[i + 1..])[1..] == ids[i + 1..];
    assert StartEach(mid, store, [ids[i]] + ids[i + 1..]) == StartEach(mid, store, ids[i + 1..]);
    StartEachAppend(t, store, ids[..i], ids[i + 1..]);
  }

  /**
   * `StartAll`: a failed listing is returned as the error and starts nothing;
   * otherwise every listed user is started in order and the call succeeds,
   * whatever happens to individual users.
   */
  function StartAll(t: Table, store: Store): (r: Result<Table, Error>)
    ensures store.userIdsWithEnabledAlerts.Failure? ==> r == Failure(store.userIdsWithEnabledAlerts.error)
    ensures store.userIdsWithEnabledAlerts.Success? ==> r.Success?
    ensures r.Success? ==> forall k :: k in r.value <==> k in t || StartedBy(store, store.userIdsWithEnabledAlerts.value, k)
    ensures r.Success? && Valid(t) ==> Valid(r.value)
  {
    match store.userIdsWithEnabledAlerts
    case Failure(e) => Failure(e)
    case Success(ids) => Success(StartEach(t, store, ids))
  }

  /** `StopAll`: stops every registered user, one at a time, leaving the registry empty. */
  method StopAll(t: Table) returns (r: Table)
    ensures r == map[]
  {
    r := t;
    var ids := t.Keys;
    while ids != {}
      invariant r.Keys == ids
      decreases |ids|
    {
      var id :| id in ids;
      r := StopUser(r, id);
      ids := ids - {id};
    }
    assert r.Keys == {};
  }

  /**
   * A registry entry does not mean a live session: a user whose only enabled
   * alert has an unparseable threshold is registered by `RestartUser`, yet
   * the session it starts returns before dialling, whatever the feed.
   */
  lemma RegisteredButIdle(store: Store, id: Int64, dec: DecimalText, feed: Alerting.Feed)
    requires store.userByTelegramId(id).Success? && store.userByTelegramId(id).value.telegramUserId == id
    requires var user := store.userByTelegramId(id).value;
      store.enabledAlerts(user.id).Success? && |store.enabledAlerts(user.id).value| == 1
      && dec.parse(store.enabledAlerts(user.id).value[0].threshold).None?
    ensures var r := RestartUser(map[], store, id);
      id in r && !Alerting.RunUser(r[id].user, r[id].alerts, feed, dec).dialed
  {
  }
}

=== FILE: text.dfy ===
/**
 * The pieces of Go's `strings`, `bytes` and `strconv` packages the bot relies on.
 *
 * A Go string is a sequence of bytes; here each `char` of a Dafny `string`
 * stands for one byte, so `|s|` is Go's `len(s)` and `s[..77]` is `s[:77]`.
 * Whitespace is the ASCII subset of `unicode.IsSpace`, and case mapping is the
 * ASCII subset of `unicode.ToUpper`/`ToLower`.
 */
module Text {

  /** The ASCII bytes `unicode.IsSpace` accepts: space, \t, \n, \v, \f, \r. */
  predicate IsSpace(c: char) {
    c == ' ' || c == '\t' || c == '\n' || c == '\U{000B}' || c == '\U{000C}' || c == '\r'
  }

  predicate AllSpace(s: string) {
    forall i :: 0 <= i < |s| ==> IsSpace(s[i])
  }

  predicate NoSpace(s: string) {
    forall i :: 0 <= i < |s| ==> !IsSpace(s[i])
  }

  /** `r` occurs in `s` starting at offset `i`. */
  predicate InfixAt(r: string, s: string, i: int) {
    0 <= i <= |s| - |r| && r == s[i..i + |r|]
  }

  /** `r` occurs in `s` at offset `i`, and everything around it is dropped by `drop`. */
  predicate SurroundedAt(r: string, s: string, i: int, drop: char -> bool) {
    && InfixAt(r, s, i)
    && (forall j :: 0 <= j < i ==> drop(s[j]))
    && (forall j :: i + |r| <= j < |s| ==> drop(s[j]))
  }

  /** Neither end of `s` is dropped by `drop`. */
  predicate TrimmedBy(s: string, drop: char -> bool) {
    s == [] || (!drop(s[0]) && !drop(s[|s| - 1]))
  }

  predicate Trimmed(s: string) {
    TrimmedBy(s, IsSpace)
  }

  /** Removes the longest prefix of characters satisfying `drop`. */
  function TrimLeftBy(s: string, drop: char -> bool): (r: string)
    ensures |r| <= |s| && r == s[|s| - |r|..]
    ensures forall i :: 0 <= i < |s| - |r| ==> drop(s[i])
    ensures r == [] || !drop(r[0])
  {
    if s != [] && drop(s[0]) then TrimLeftBy(s[1..], drop) else s
  }

  /** Removes the longest suffix of characters satisfying `drop`. */
  function TrimRightBy(s: string, drop: char -> bool): (r: string)
    ensures |r| <= |s| && r == s[..|r|]
    ensures forall i :: |r| <= i < |s| ==> drop(s[i])
    ensures r == [] || !drop(r[|r| - 1])
  {
    if s != [] && drop(s[|s| - 1]) then TrimRightBy(s[..|s| - 1], drop) else s
  }

  /** `strings.Trim(s, cutset)` with the cutset given as a predicate. */
  function TrimBy(s: string, drop: char -> bool): (r: string)
    ensures |r| <= |s|
    ensures TrimmedBy(r, drop)
    ensures (forall i :: 0 <= i < |s| ==> drop(s[i])) <==> r == []
  {
    var left := TrimLeftBy(s, drop);
    var r := TrimRightBy(left, drop);
    if r == [] then
      assert left == [];
      r
    else
      r
  }

  /** Trimming only cuts characters satisfying `drop`, and only at the ends. */
  lemma TrimBySurrounded(s: string, drop: char -> bool)
    ensures exists i :: SurroundedAt(TrimBy(s, drop), s, i, drop)
  {
    var left := TrimLeftBy(s, drop);
    var r := TrimRightBy(left, drop);
    assert r == TrimBy(s, drop);
    assert InfixAt(r, s, |s| - |left|);
    assert SurroundedAt(r, s, |s| - |left|, drop);
  }

  /** `strings.TrimSpace` / `bytes.TrimSpace`. */
  function TrimSpace(s: string): (r: string)
    ensures Trimmed(r)
    ensures AllSpace(s) <==> r == []
  {
    var drop: char -> bool := IsSpace;
    var r := TrimBy(s, drop);
    assert AllSpace(s) <==> forall i :: 0 <= i < |s| ==> drop(s[i]);
    r
  }

  /** What `TrimSpace` returns is `s` with only whitespace cut from either end. */
  lemma TrimSpaceSurrounded(s: string)
    ensures exists i :: SurroundedAt(TrimSpace(s), s, i, IsSpace)
  {
    TrimBySurrounded(s, IsSpace);
    var i :| SurroundedAt(TrimBy(s, IsSpace), s, i, IsSpace);
    assert SurroundedAt(TrimSpace(s), s, i, IsSpace);
  }

  lemma {:induction false} TrimLeftOfPadding(pad: string, t: string, drop: char -> bool)
    requires forall i :: 0 <= i < |pad| ==> drop(pad[i])
    requires t == [] || !drop(t[0])
    ensures TrimLeftBy(pad + t, drop) == t
    decreases |pad|
  {
    if pad == [] {
      assert pad + t == t;
    } else {
      assert (pad + t)[1..] == pad[1..] + t;
      TrimLeftOfPadding(pad[1..], t, drop);
    }
  }

  lemma {:induction false} TrimRightOfPadding(t: string, pad: string, drop: char -> bool)
    requires forall i :: 0 <= i < |pad| ==> drop(pad[i])
    requires t == [] || !drop(t[|t| - 1])
    ensures TrimRightBy(t + pad, drop) == t
    decreases |pad|
  {
    if pad == [] {
      assert t + pad == t;
    } else {
      assert (t + pad)[..|t + pad| - 1] == t + pad[..|pad| - 1];
      TrimRightOfPadding(t, pad[..|pad| - 1], drop);
    }
  }

  /** Trimming removes exactly the surrounding padding of an already trimmed text. */
  lemma TrimSpaceOfPadded(left: string, t: string, right: string)
    requires AllSpace(left) && AllSpace(right) && Trimmed(t)
    ensures TrimSpace(left + t + right) == t
  {
    assert left + t + right == left + (t + right);
    if t == [] {
      TrimLeftOfPadding(left + right, [], IsSpace);
      assert left + t + right == (left + right) + [];
    } else {
      assert (t + right)[0] == t[0];
      TrimLeftOfPadding(left, t + right, IsSpace);
      TrimRightOfPadding(t, right, IsSpace);
    }
  }

  /** Trimming an already trimmed text changes nothing. */
  lemma TrimSpaceOfTrimmed(t: string)
    requires Trimmed(t)
    ensures TrimSpace(t) == t
  {
    TrimSpaceOfPadded([], t, []);
    assert [] + t + [] == t;
  }

  lemma TrimSpaceOfWord(w: string)
    requires w != [] && NoSpace(w)
    ensures TrimSpace(w) == w
  {
    TrimSpaceOfTrimmed(w);
  }

  /** The longest prefix of `s` without whitespace. */
  function Word(s: string): (w: string)
    ensures |w| <= |s| && w == s[..|w|] && NoSpace(w)
    ensures |w| == |s| || IsSpace(s[|w|])
  {
    if s == [] || IsSpace(s[0]) then [] else [s[0]] + Word(s[1..])
  }

  /** `pads[0] + fs[0] + pads[1] + fs[1] + ... + pads[|fs|]`. */
  function Interleave(pads: seq<string>, fs: seq<string>): string
    requires |pads| == |fs| + 1
    decreases |fs|
  {
    if fs == [] then pads[0] else pads[0] + fs[0] + Interleave(pads[1..], fs[1..])
  }

  /**
   * `n + 1` runs of whitespace to put around `n` fields: the two outer ones may
   * be empty, the ones between two fields may not.
   */
  predicate Separators(pads: seq<string>, n: nat) {
    && |pads| == n + 1
    && (forall i :: 0 <= i < |pads| ==> AllSpace(pads[i]))
    && (forall i :: 0 < i < n ==> pads[i] != [])
  }

  /** `s` is the fields `fs` with whitespace before, between and after them. */
  ghost predicate Splits(s: string, fs: seq<string>) {
    exists pads :: Separators(pads, |fs|) && s == Interleave(pads, fs)
  }

  lemma SplitsEmpty()
    ensures Splits([], [])
  {
    assert Separators([[]], 0) && [] == Interleave([[]], []);
  }

  /** A leading whitespace byte joins the first separator. */
  lemma SplitsSpace(s: string, fs: seq<string>)
    requires s != [] && IsSpace(s[0])
    requires Splits(s[1..], fs)
    ensures Splits(s, fs)
  {
    var pads :| Separators(pads, |fs|) && s[1..] == Interleave(pads, fs);
    var first := [s[0]] + pads[0];
    assert AllSpace(first);
    var pads' := pads[0 := first];
    assert pads'[1..] == pads[1..];
    assert Separators(pads', |fs|);
    assert s == [s[0]] + s[1..];
    if fs != [] {
      var tail := Interleave(pads[1..], fs[1..]);
      assert s[1..] == pads[0] + fs[0] + tail;
      assert Interleave(pads', fs) == first + fs[0] + tail;
      assert first + fs[0] + tail == [s[0]] + (pads[0] + fs[0] + tail);
    }
    assert s == Interleave(pads', fs);
  }

  /** Interleaving that starts with a field starts with the field's first byte. */
  lemma InterleaveHead(pads: seq<string>, fs: seq<string>)
    requires |pads| == |fs| + 1 && fs != [] && pads[0] == [] && fs[0] != []
    ensures Interleave(pads, fs) != [] && Interleave(pads, fs)[0] == fs[0][0]
  {
    var tail := Interleave(pads[1..], fs[1..]);
    assert Interleave(pads, fs) == pads[0] + fs[0] + tail;
    assert pads[0] + fs[0] == fs[0];
    assert (fs[0] + tail)[0] == fs[0][0];
  }

  /** A word followed by whitespace or nothing becomes the first field. */
  lemma SplitsWord(s: string, w: string, fs: seq<string>)
    requires w != [] && |w| <= |s| && w == s[..|w|] && NoSpace(w)
    requires |w| == |s| || IsSpace(s[|w|])
    requires forall i :: 0 <= i < |fs| ==> fs[i] != [] && NoSpace(fs[i])
    requires Splits(s[|w|..], fs)
    ensures Splits(s, [w] + fs)
  {
    var rest := s[|w|..];
    var pads :| Separators(pads, |fs|) && rest == Interleave(pads, fs);
    if fs != [] && pads[0] == [] {
      InterleaveHead(pads, fs);
      assert false;
    }
    var pads' := [[]] + pads;
    assert pads'[1..] == pads;
    assert Separators(pads', |fs| + 1);
    assert ([w] + fs)[1..] == fs;
    assert Interleave(pads', [w] + fs) == [] + w + rest;
    assert s == w + rest;
  }

  /**
   * `strings.Fields`: the maximal runs of non-whitespace, in order; the input
   * is exactly those runs with whitespace around and between them.
   */
  function Fields(s: string): (fs: seq<string>)
    ensures forall i :: 0 <= i < |fs| ==> fs[i] != [] && NoSpace(fs[i])
    ensures Splits(s, fs)
    decreases |s|
  {
    if s == [] then
      SplitsEmpty();
      []
    else if IsSpace(s[0]) then
      var fs := Fields(s[1..]);
      SplitsSpace(s, fs);
      fs
    else
      var w := Word(s);
      var fs := Fields(s[|w|..]);
      SplitsWord(s, w, fs);
      [w] + fs
  }

  /** The words separated by single spaces. */
  function JoinSpaced(ws: seq<string>): string {
    if |ws| == 0 then ""
    else if |ws| == 1 then ws[0]
    else ws[0] + " " + JoinSpaced(ws[1..])
  }

  lemma {:induction false} WordOfJoin(w: string, rest: string)
    requires NoSpace(w)
    requires rest == [] || IsSpace(rest[0])
    ensures Word(w + rest) == w
    decreases |w|
  {
    if w == [] {
      assert w + rest == rest;
    } else {
      assert (w + rest)[1..] == w[1..] + rest;
      WordOfJoin(w[1..], rest);
      assert [w[0]] + w[1..] == w;
    }
  }

  /** Splitting single-space-joined words gives the words back. */
  lemma {:induction false} FieldsOfJoin(ws: seq<string>)
    requires forall i :: 0 <= i < |ws| ==> ws[i] != [] && NoSpace(ws[i])
    ensures Fields(JoinSpaced(ws)) == ws
    decreases |ws|
  {
    if |ws| == 0 {
    } else if |ws| == 1 {
      var w := ws[0];
      WordOfJoin(w, []);
      assert w + [] == w;
      assert w[|w|..] == [];
    } else {
      var w := ws[0];
      var rest := JoinSpaced(ws[1..]);
      var s := w + " " + rest;
      assert s == w + (" " + rest);
      WordOfJoin(w, " " + rest);
      assert s[|w|..] == " " + rest;
      assert (" " + rest)[1..] == rest;
      FieldsOfJoin(ws[1..]);
      assert [w] + ws[1..] == ws;
    }
  }

  function UpperChar(c: char): char {
    if 'a' <= c <= 'z' then (c as int - 32) as char else c
  }

  function LowerChar(c: char): char {
    if 'A' <= c <= 'Z' then (c as int + 32) as char else c
  }

  /** `strings.ToUpper` on ASCII letters. */
  function ToUpper(s: string): (r: string)
    ensures |r| == |s|
  {
    seq(|s|, i requires 0 <= i < |s| => UpperChar(s[i]))
  }

  /** `strings.ToLower` on ASCII letters. */
  function ToLower(s: string): (r: string)
    ensures |r| == |s|
  {
    seq(|s|, i requires 0 <= i < |s| => LowerChar(s[i]))
  }

  lemma LowerOfUpper(s: string)
    ensures ToLower(ToUpper(s)) == ToLower(s)
  {
  }

  lemma UpperKeepsTrimmed(s: string)
    requires Trimmed(s)
    ensures Trimmed(ToUpper(s))
  {
  }

  lemma UpperIdempotent(s: string)
    ensures ToUpper(ToUpper(s)) == ToUpper(s)
  {
  }

  /** No byte of `s` is a newline. */
  predicate OneLine(s: string) {
    forall i :: 0 <= i < |s| ==> s[i] != '\n'
  }

  /** `strings.ReplaceAll(s, "\n", " ")`. */
  function NewlinesToSpaces(s: string): (r: string)
    ensures |r| == |s| && OneLine(r)
    ensures forall i :: 0 <= i < |s| ==> r[i] == (if s[i] == '\n' then ' ' else s[i])
  {
    seq(|s|, i requires 0 <= i < |s| => if s[i] == '\n' then ' ' else s[i])
  }

  predicate IsDigit(c: char) {
    '0' <= c <= '9'
  }

  predicate AllDigits(s: string) {
    forall i :: 0 <= i < |s| ==> IsDigit(s[i])
  }

  function DigitValue(c: char): nat
    requires IsDigit(c)
  {
    c as int - '0' as int
  }

  function DigitChar(d: nat): (c: char)
    requires d < 10
    ensures IsDigit(c) && DigitValue(c) == d
  {
    ('0' as int + d) as char
  }

  /** The value of a run of decimal digits, most significant first. */
  function DigitsValue(s: string): nat
    requires AllDigits(s)
  {
    if s == [] then 0 else 10 * DigitsValue(s[..|s| - 1]) + DigitValue(s[|s| - 1])
  }

  /** A longer run of digits is worth at least as much as its prefix. */
  lemma {:induction false} DigitsValuePrefix(s: string, j: nat)
    requires AllDigits(s) && j <= |s|
    ensures DigitsValue(s[..j]) <= DigitsValue(s)
    decreases |s| - j
  {
    if j < |s| {
      DigitsValuePrefix(s, j + 1);
      assert s[..j + 1][..j] == s[..j];
    } else {
      assert s[..j] == s;
    }
  }

  /** `%d` / `strconv.FormatUint(n, 10)`: the shortest decimal rendering of `n`. */
  function NatToString(n: nat): (s: string)
    ensures s != [] && AllDigits(s)
    ensures DigitsValue(s) == n
    ensures |s| > 1 ==> s[0] != '0'
  {
    if n < 10 then [DigitChar(n)]
    else
      var p := NatToString(n / 10);
      var s := p + [DigitChar(n % 10)];
      assert s[..|s| - 1] == p;
      s
  }
}

=== FILE: user_usecase.dfy ===
/**
 * `StartOrGetUser` of `internal/usecase/user_usecase.go`: get-or-create of a
 * user by Telegram id, over a user repository whose state is a type
 * parameter, and an in-memory repository to reason about repeated calls.
 */
module UserUsecase {
  import opened Wrappers
  import opened Domain

  /**
   * The two calls of `domain.UserRepository` the use case makes, over a store
   * state `S`: a lookup, and a create that returns the new state and the id
   * it assigned.
   */
  datatype UserRepo<!S> = UserRepo(
    getByTelegramId: (S, Int64) -> Result<User, Error>,
    create: (S, User) -> (S, Result<Uint64, Error>))

  /** The store after a call, and what the call returned. */
  datatype Reply<S> = Reply(store: S, result: Result<User, Error>)

  /**
   * An existing user is returned unchanged and nothing is created; a lookup
   * error other than "not found" is returned and nothing is created; on "not
   * found" a user with exactly the given Telegram id and username is created
   * and returned with the id the store assigned, unless the create fails.
   */
  function StartOrGetUser<S>(repo: UserRepo<S>, s: S, telegramUserId: Int64, username: string): (r: Reply<S>)
    ensures repo.getByTelegramId(s, telegramUserId).Success? ==> r == Reply(s, repo.getByTelegramId(s, telegramUserId))
    ensures repo.getByTelegramId(s, telegramUserId).Failure? && repo.getByTelegramId(s, telegramUserId).error != NotFound ==>
      r == Reply(s, repo.getByTelegramId(s, telegramUserId))
    ensures repo.getByTelegramId(s, telegramUserId) == Failure(NotFound) ==>
      var made := repo.create(s, User(0, telegramUserId, username));
      && r.store == made.0
      && (made.1.Failure? ==> r.result == Failure(made.1.error))
      && (made.1.Success? ==> r.result == Success(User(made.1.value, telegramUserId, username)))
    ensures r.result.Success? ==> r.result.value.telegramUserId == telegramUserId || repo.getByTelegramId(s, telegramUserId).Success?
  {
    match repo.getByTelegramId(s, telegramUserId)
    case Success(user) => Reply(s, Success(user))
    case Failure(e) =>
      if e != NotFound then Reply(s, Failure(e))
      else
        var newUser := User(0, telegramUserId, username);
        var made := repo.create(s, newUser);
        match made.1
        case Failure(err) => Reply(made.0, Failure(err))
        case Success(id) => Reply(made.0, Success(newUser.(id := id)))
  }

  /**
   * An in-memory user table: users by Telegram id (the column is unique) and
   * the next id to assign.
   */
  datatype MemUsers = MemUsers(byTelegramId: map<Int64, User>, nextId: Uint64)

  /** Every user is filed under its own Telegram id and has an id below the next one. */
  predicate MemValid(s: MemUsers) {
    forall k :: k in s.byTelegramId ==> s.byTelegramId[k].telegramUserId == k && s.byTelegramId[k].id < s.nextId
  }

  function MemGet(s: MemUsers, telegramUserId: Int64): (r: Result<User, Error>)
    ensures r.Success? <==> telegramUserId in s.byTelegramId
    ensures r.Success? ==> r.value == s.byTelegramId[telegramUserId]
    ensures r.Failure? ==> r.error == NotFound
  {
    if telegramUserId in s.byTelegramId then Success(s.byTelegramId[telegramUserId]) else Failure(NotFound)
  }

  /**
   * Insert with a fresh id; a second user with the same Telegram id violates
   * the unique index, and an exhausted id space is refused too.
   */
  function MemCreate(s: MemUsers, u: User): (r: (MemUsers, Result<Uint64, Error>))
    ensures r.1.Failure? ==> r.0 == s
    ensures r.1.Success? ==>
      && u.telegramUserId !in s.byTelegramId
      && r.0.byTelegramId == s.byTelegramId[u.telegramUserId := u.(id := r.1.value)]
    ensures MemValid(s) ==> MemValid(r.0)
  {
    if u.telegramUserId in s.byTelegramId then (s, Failure(Other("duplicate telegram user id")))
    else if s.nextId == 0xFFFF_FFFF_FFFF_FFFF then (s, Failure(Other("user id space exhausted")))
    else (MemUsers(s.byTelegramId[u.telegramUserId := u.(id := s.nextId)], s.nextId + 1), Success(s.nextId))
  }

  function MemRepo(): UserRepo<MemUsers> {
    UserRepo(MemGet, MemCreate)
  }

  /**
   * Over the in-memory table, once a call has returned a user, calling again
   * with the same Telegram id (and any username) returns that same user and
   * adds nothing.
   */
  lemma SecondStartChangesNothing(s: MemUsers, telegramUserId: Int64, username: string, again: string)
    requires MemValid(s)
    requires StartOrGetUser(MemRepo(), s, telegramUserId, username).result.Success?
    ensures var first := StartOrGetUser(MemRepo(), s, telegramUserId, username);
      StartOrGetUser(MemRepo(), first.store, telegramUserId, again) == first
  {
    var first := StartOrGetUser(MemRepo(), s, telegramUserId, username);
    if telegramUserId !in s.byTelegramId {
      assert first.store.byTelegramId[telegramUserId] == first.result.value;
    }
  }

  /** The first call for a new Telegram id registers exactly one user. */
  lemma FirstStartRegistersOne(s: MemUsers, telegramUserId: Int64, username: string)
    requires MemValid(s) && telegramUserId !in s.byTelegramId && s.nextId < 0xFFFF_FFFF_FFFF_FFFF
    ensures var r := StartOrGetUser(MemRepo(), s, telegramUserId, username);
      && r.result == Success(User(s.nextId, telegramUserId, username))
      && r.store.byTelegramId.Keys == s.byTelegramId.Keys + {telegramUserId}
      && MemValid(r.store)
  {
  }
}

=== FILE: wrappers.dfy ===
/** Failure-compatible wrappers: Go's `(value, error)` pairs and nil pointers. */
module Wrappers {

  /** A Go pointer that may be nil, or an optional field. */
  datatype Option<+T> = None | Some(value: T) {
    predicate IsFailure() {
      None?
    }

    function PropagateFailure<U>(): Option<U>
      requires None?
    {
      None
    }

    function Extract(): T
      requires Some?
    {
      value
    }
  }

  /** A Go `(value, err)` result: exactly one of the two is meaningful. */
  datatype Result<+T, +E> = Success(value: T) | Failure(error: E) {
    predicate IsFailure() {
      Failure?
    }

    function PropagateFailure<U>(): Result<U, E>
      requires Failure?
    {
      Failure(error)
    }

    function Extract(): T
      requires Success?
    {
      value
    }
  }

  /** A Go call that returns only an `error`: nil (Pass) or an error value. */
  datatype Outcome<+E> = Pass | Fail(error: E) {
    predicate IsFailure() {
      Fail?
    }

    function PropagateFailure(): Outcome<E>
      requires Fail?
    {
      this
    }
  }
}

=== FILE: ws_client.dfy ===
/**
 * The decoding half of the market websocket client
 * (`internal/infra/polymarket/ws_client.go`): turning one received frame into
 * at most one price-change message. Dialing, deadlines, subscribing and
 * closing are network I/O and are not part of this model; a frame read is an
 * input `Result` and `encoding/json` is the abstract `WsJson`.
 */
module WsClient {
  import opened Wrappers
  import opened Text
  import opened Domain
  import opened PolymarketModels

  datatype WsPriceChange = WsPriceChange(
    assetId: string,
    bestBid: NullableDecimal,
    bestAsk: NullableDecimal,
    price: NullableDecimal)

  datatype WsMessage = WsMessage(eventType: string, priceChanges: seq<WsPriceChange>)

  /** `json.Unmarshal` into `[]wsMessage` and into `wsMessage`; None is an error. */
  datatype WsJson = WsJson(
    decodeArray: string -> Option<seq<WsMessage>>,
    decodeObject: string -> Option<WsMessage>)

  datatype DecodeFailure = EmptyMessage | BadArray | BadObject

  /** A present decimal becomes a non-nil pointer to a copy of it. */
  function FromNullable(n: NullableDecimal): (o: Option<Decimal>)
    ensures o.Some? <==> n.valid
    ensures o.Some? ==> o.value == n.decimal
  {
    if n.valid then Some(n.decimal) else None
  }

  function MapChange(c: WsPriceChange): PriceChange {
    PriceChange(c.assetId, FromNullable(c.bestBid), FromNullable(c.bestAsk), FromNullable(c.price))
  }

  /**
   * `mapPriceChange`: one domain change per wire change, in the same order,
   * with the same asset id, and each price present exactly when the wire
   * field was valid, carrying the same value.
   */
  function MapPriceChange(p: WsMessage): (m: PriceChangeMessage)
    ensures m.eventType == p.eventType
    ensures |m.priceChanges| == |p.priceChanges|
    ensures forall i :: 0 <= i < |p.priceChanges| ==>
      && m.priceChanges[i].assetId == p.priceChanges[i].assetId
      && (m.priceChanges[i].bestBid.Some? <==> p.priceChanges[i].bestBid.valid)
      && (m.priceChanges[i].bestAsk.Some? <==> p.priceChanges[i].bestAsk.valid)
      && (m.priceChanges[i].price.Some? <==> p.priceChanges[i].price.valid)
    ensures forall i :: 0 <= i < |p.priceChanges| ==>
      && (m.priceChanges[i].bestBid.Some? ==> m.priceChanges[i].bestBid.value == p.priceChanges[i].bestBid.decimal)
      && (m.priceChanges[i].bestAsk.Some? ==> m.priceChanges[i].bestAsk.value == p.priceChanges[i].bestAsk.decimal)
      && (m.priceChanges[i].price.Some? ==> m.priceChanges[i].price.value == p.priceChanges[i].price.decimal)
  {
    PriceChangeMessage(
      p.eventType,
      seq(|p.priceChanges|, i requires 0 <= i < |p.priceChanges| => MapChange(p.priceChanges[i])))
  }

  /** The position of the first `price_change` payload of an array frame, if any. */
  function FirstPriceChange(ps: seq<WsMessage>): (k: Option<nat>)
    ensures k.Some? ==> k.value < |ps| && ps[k.value].eventType == PriceChangeEvent
    ensures k.Some? ==> forall j :: 0 <= j < k.value ==> ps[j].eventType != PriceChangeEvent
    ensures k.None? <==> forall j :: 0 <= j < |ps| ==> ps[j].eventType != PriceChangeEvent
  {
    if ps == [] then None
    else if ps[0].eventType == PriceChangeEvent then Some(0)
    else
      match FirstPriceChange(ps[1..])
      case None => None
      case Some(k) => Some(k + 1)
  }

  /** What an array frame yields: the first `price_change` payload, mapped, or nothing. */
  function SelectFromArray(ps: seq<WsMessage>): (r: Option<PriceChangeMessage>)
    ensures r.Some? <==> exists j :: 0 <= j < |ps| && ps[j].eventType == PriceChangeEvent
    ensures r.Some? ==> exists k :: && 0 <= k < |ps| && ps[k].eventType == PriceChangeEvent
                                     && (forall j :: 0 <= j < k ==> ps[j].eventType != PriceChangeEvent)
                                     && r.value == MapPriceChange(ps[k])
  {
    match FirstPriceChange(ps)
    case None => None
    case Some(k) => Some(MapPriceChange(ps[k]))
  }

  /** Payloads after the first `price_change` one never matter. */
  lemma SelectFromArrayIgnoresRest(ps: seq<WsMessage>, rest: seq<WsMessage>)
    requires exists j :: 0 <= j < |ps| && ps[j].eventType == PriceChangeEvent
    ensures SelectFromArray(ps + rest) == SelectFromArray(ps)
  {
    var k := FirstPriceChange(ps).value;
    assert forall j :: 0 <= j < |ps| ==> (ps + rest)[j] == ps[j];
    assert FirstPriceChange(ps + rest) == Some(k);
  }

  /**
   * `decodeMessage`: blank frames are an error; an array frame yields its
   * first `price_change` payload (nothing, without error, when there is
   * none); an object frame yields itself when it is a `price_change` and
   * nothing, without error, otherwise.
   */
  function DecodeMessage(data: string, json: WsJson): (r: Result<Option<PriceChangeMessage>, DecodeFailure>)
    ensures AllSpace(data) ==> r == Failure(EmptyMessage)
    ensures !AllSpace(data) && TrimSpace(data)[0] == '[' ==>
      (match json.decodeArray(TrimSpace(data))
       case None => r == Failure(BadArray)
       case Some(ps) => r == Success(SelectFromArray(ps)))
    ensures !AllSpace(data) && TrimSpace(data)[0] != '[' ==>
      (match json.decodeObject(TrimSpace(data))
       case None => r == Failure(BadObject)
       case Some(p) => r == Success(if p.eventType == PriceChangeEvent then Some(MapPriceChange(p)) else None))
    ensures r.Success? && r.value.Some? ==> r.value.value.eventType == PriceChangeEvent
  {
    var trimmed := TrimSpace(data);
    if |trimmed| == 0 then
      Failure(EmptyMessage)
    else if trimmed[0] == '[' then
      match json.decodeArray(trimmed)
      case None => Failure(BadArray)
      case Some(payloads) => Success(SelectFromArray(payloads))
    else
      match json.decodeObject(trimmed)
      case None => Failure(BadObject)
      case Some(payload) =>
        if payload.eventType != PriceChangeEvent then Success(None)
        else Success(Some(MapPriceChange(payload)))
  }

  /**
   * `Receive` after the read: a read failure is the only error; a frame that
   * does not decode becomes "no message", not an error.
   */
  function Receive(read: Result<string, string>, json: WsJson): (r: Result<Option<PriceChangeMessage>, string>)
    ensures r.Failure? <==> read.Failure?
    ensures read.Failure? ==> r.error == read.error
    ensures read.Success? && DecodeMessage(read.value, json).Failure? ==> r == Success(None)
    ensures read.Success? && DecodeMessage(read.value, json).Success? ==> r.value == DecodeMessage(read.value, json).value
  {
    match read
    case Failure(e) => Failure(e)
    case Success(data) =>
      match DecodeMessage(data, json)
      case Failure(_) => Success(None)
      case Success(message) => Success(message)
  }
}
